=== FILE: README.md ===
# asynt tutorial runtime — a Dafny model

asynt's tutorial package runs one program on several parties. Each party
holds a dataflow graph of Variables and Ops. Every pair of parties shares
one TCP connection. A party feeds values into its own Variables, and the
values travel to the other parties in length-prefixed frames. Each frame is
tagged by the sequence number the node took when it was created.

This project models four parts of that package:

- **The configuration** (`Config`): `host:port` arguments are split into a
  host and a port. The party roster is built from them, with pids, the own
  party (marked by an empty host) and the port rules. `Decimal` models
  Python's `int()` on text and `str()` on integers.
- **The wire format** (`Framing`):
  - the `!HI{n}s` frame (2-byte big-endian tag, 4-byte big-endian length,
    payload) and its decoder;
  - the receive loop that cuts complete frames off an accumulation buffer;
  - the loop exactly as the source writes it, kept to exhibit its defects
    (see Findings).
- **One peer connection** (`Exchanger`, the `VariableExchanger` protocol):
  - the one-byte identity preamble;
  - the handshake that registers a connection in the party list and fires
    the "all connected" barrier;
  - the delivery buffer, which pairs each arriving payload with the request
    for its tag, whichever comes first.
- **The runtime** (`Graph`, `Runtime`):
  - the tag counter and the node arena;
  - variable naming and Op labels;
  - what `add`, `mul` and `pow` compute;
  - `Party.send` and `Party.receive`, and bytes arriving from a peer;
  - `feed`, `shutdown`, and who dials whom in `start`.

State is immutable. Every operation is a function from a state to a new
state, or to an error standing for the exception the source raises. Effects
on the network are returned as a list of `Event`s (`Wrote`, `Closed`).
`pickle` is a `Runtime.Codec` parameter: `dumps` gives bytes, and `loads`
gives a number or `None`. Values are Python integers.

The model follows the code in three places where a reader might expect
otherwise:

- A completed placeholder stays in the delivery buffer (`Fulfilled`); it is
  not removed. A second payload under the same tag on the same connection
  raises. On a parked raw payload there is no `set_result`; on a completed
  placeholder `set_result` raises `InvalidStateError`.
- `receive` leaves a node pending when the parked payload reads back as
  `None`.
- `feed` also raises on a variable that already has a value, because
  `set_result` refuses a second result.

## Model

| member | source | states |
|---|---|---|
| Framing.EncodeFields | tutorial/asyncoro.py:34-37 | an encoded frame carries the tag in its first two bytes and the payload length in the next four, both big-endian, then the payload unchanged |
| Framing.Pack | tutorial/asyncoro.py:30-37 | `send_data` packs a frame exactly when the tag fits 16 bits and the length fits 32 bits, and names the field that does not fit otherwise; a packed frame is 6 + n bytes and decodes back to the same tag and payload |
| Framing.Decode | tutorial/asyncoro.py:56-65 | a buffer yields no frame exactly when it holds fewer than 6 bytes or fewer than 6 + length; otherwise the bytes it consumes are the encoding of the frame it returns |
| Framing.DecodeEncode | tutorial/asyncoro.py:56-68 | decoding an encoded frame followed by anything returns that frame and consumes exactly its bytes |
| Framing.PrefixIncomplete | tutorial/asyncoro.py:61-62 | no proper prefix of a frame is taken as a frame: the loop waits for more bytes |
| Framing.FromToBigEndian | tutorial/asyncoro.py:35-37 | reading back a number written big-endian in a width it fits gives the number |
| Framing.Drain | tutorial/asyncoro.py:56-67 | the receive loop, reading headers from the accumulated buffer: the frames it cuts, re-encoded, followed by what it leaves, give back the buffer; what it leaves is empty or an incomplete frame |
| Framing.DrainEncoded | tutorial/asyncoro.py:56-67 | a stream of encoded frames followed by an incomplete one is read as exactly those frames, and the incomplete one is kept |
| Framing.DrainChunked | tutorial/asyncoro.py:48-67 | reading a stream in two chunks gives the same frames, in the same order, and the same leftover as reading it in one piece |
| Framing.DrainAsWritten | tutorial/asyncoro.py:56-67 | the loop as written: it raises when the current chunk is shorter than a header, and every frame it cuts carries the tag in the first two bytes of the current chunk |
| Framing.PreambleShiftsHeader | tutorial/asyncoro.py:49-58 | identity byte 1 then an empty frame under tag 0, in one read, is read as tag 256 by the loop as written and as tag 0 by the corrected loop |
| Framing.SecondHeaderRereadsFirst | tutorial/asyncoro.py:56-67 | two frames in one read: the loop as written cuts the second with the first's tag and length; the corrected loop returns both as sent |
| Framing.SplitHeaderRaises | tutorial/asyncoro.py:56-62 | a header split 3 + 3 bytes across two reads makes the loop as written raise; the corrected loop keeps the 3 bytes and completes the frame on the next read |
| Exchanger.Deliver | tutorial/asyncoro.py:69-72 | a payload completes the placeholder waiting under its tag, or is parked as that payload under the tag when nothing is there; it raises exactly when the tag already received a payload; no other tag changes |
| Exchanger.DeliverOnce | tutorial/asyncoro.py:69-72 | each tag takes at most one payload per connection: a second payload under the same tag raises |
| Exchanger.DeliverAll | tutorial/asyncoro.py:56-72 | delivering a read's frames succeeds exactly when each frame's tag is new or has a placeholder waiting and no tag comes twice; then every frame's payload lands under its tag (completing the waiting placeholder or parked raw), the buffer gains exactly the frames' tags, other slots keep their contents, and the completions are, in frame order, one per frame that found a placeholder waiting |
| Exchanger.DeliverAllBelow | tutorial/asyncoro.py:69-72 | delivery creates no placeholder: every node it completes was already waiting |
| Exchanger.Ingest | tutorial/asyncoro.py:48-72 | bytes on an established connection are appended to the pending bytes and framed by the corrected loop; the read raises exactly when delivering those frames raises, and otherwise the new buffer and the completions are what delivering them leaves; the peer is unchanged |
| Exchanger.ConnectionMade | tutorial/asyncoro.py:14-22 | a dialled connection writes exactly one byte, the own pid, and registers itself; the pid must fit one byte; an accepted connection writes nothing and registers nothing; with a pid that fits, a dialled connection succeeds exactly when its handshake does |
| Exchanger.Handshake | tutorial/asyncoro.py:24-28 | registration writes the connection into the peer's slot and touches no other party's slot; an unknown peer raises; while a slot is empty the registration is all that happens; once none is, a waiting barrier in the own slot completes, a completed one raises, and a connection written over the own slot raises |
| Exchanger.DataReceived | tutorial/asyncoro.py:39-72 | an accepted connection takes its first buffered byte as the peer's pid and registers under it; the rest, and every later read, is framed by the corrected loop and delivered; the read raises exactly when that registration or that delivery raises, and otherwise leaves the delivery's buffer and completions; afterwards the peer is known |
| Exchanger.PreambleRoundTrip | tutorial/asyncoro.py:14-54 | the identity byte a dialling party writes, followed by frames, makes the accepting party register the dialler (and raise whenever that registration raises) and read exactly those frames, keeping an incomplete tail |
| Exchanger.AcceptedStream | tutorial/asyncoro.py:49-67 | the first read of an accepted connection takes its peer from the first byte, registers it through the handshake, and frames every byte after it |
| Exchanger.PreambleOnce | tutorial/asyncoro.py:49-54 | the identity byte is consumed once: two reads on an accepted connection frame the same bytes as one read of both chunks without their first byte |
| Exchanger.RereadTagRaises | tutorial/asyncoro.py:56-72 | the two frames the loop as written cuts from one read of frames under tags 0 and 1 both carry tag 0, so delivery raises at the second: `NoSetResult` on a fresh buffer, `AlreadyFulfilled` when a placeholder for tag 0 was waiting |
| Exchanger.StartVacancies | tutorial/runtime.py:104-106 | when `start` has put the barrier in the own slot, m-1 slots are empty |
| Exchanger.BarrierFires | tutorial/asyncoro.py:24-28 | from `start`'s registry, handshakes of distinct other parties never raise, fill exactly their slots, and fire the barrier exactly when the (m-1)-th one registers |
| Graph.TagsCountUp | tutorial/runtime.py:86-90 | successive reads of `pc` return the counter, the counter plus one, and so on |
| Graph.Construct | tutorial/runtime.py:209-213 | a new node is pending, gets the current counter as its tag, is appended, and leaves every earlier node as it was; tags stay equal to creation positions |
| Graph.NewVariable | tutorial/runtime.py:178-185 | a new Variable takes the next tag, is registered, and is called by the given name, or `var_i` with i the number of variables registered before |
| Graph.Label | tutorial/runtime.py:57-61 | an Op's label is its operation's name, `(`, the left operand's repr, `,`, the right operand's repr, `)` |
| Graph.NewOp | tutorial/runtime.py:57-66 | `add`/`mul`/`pow` append one pending Op with the next tag and its label; no variable is registered |
| Graph.RunStep | tutorial/runtime.py:178-185 | one construction call registers a node exactly when it is `variable()`; an unnamed variable is named after the count before it |
| Graph.BuildRegisters | tutorial/runtime.py:178-185 | from a fresh runtime, the registered variables are exactly the positions of the `variable()` calls; Ops are never registered |
| Graph.BuildNames | tutorial/runtime.py:178-183 | from a fresh runtime, the unnamed variable at position k is `var_i` with i the number of variables created before position k |
| Graph.Apply | tutorial/runtime.py:157-176 | `add`, `mul` and `pow` give a+b, a*b and a**b; only a negative exponent leaves the integers |
| Graph.Settle | tutorial/runtime.py:63-74 | an Op's task resolves it to the operation applied to its operands' values once they are all available; nothing else in the arena changes |
| Graph.OperandAgrees | tutorial/runtime.py:71-74 | an operand reads a resolved node's value, or a number as it is, in agreement with the graph's denotation |
| Graph.SettleComputes | tutorial/runtime.py:157-176 | letting the Op tasks complete in creation order resolves each node to exactly the value the graph denotes, and leaves pending exactly the nodes without one |
| Graph.SettleAll | tutorial/runtime.py:157-176 | once every task has run, every node's state is the value the graph denotes for it |
| Runtime.Frame | tutorial/runtime.py:29-32 | `send` of a pending node raises; for a resolved one, the frame is its encoded value under its own tag, which decodes back to the same message, or a packing error when that does not fit |
| Runtime.Send | tutorial/runtime.py:29-32 | `send` writes that frame to the chosen peer and to no one else |
| Runtime.Receive | tutorial/runtime.py:34-52 | `receive` leaves the party connected and only moves it forward; it raises only when something is already under the node's tag; with nothing there, the only change is a placeholder for the node in that peer's buffer |
| Runtime.ReceiveEffects | tutorial/runtime.py:34-44 | `receive` touches only that peer's buffer and that node; with nothing under the tag it leaves a placeholder and changes nothing else; a placeholder under the tag raises; a parked payload resolves a pending node to the value it reads as, changes nothing when it reads as `None`, and raises on a node that already has a value; the node changes in no other way |
| Runtime.ApplyFulfil | tutorial/runtime.py:46-50 | a completed placeholder resolves its node to the decoded value when the node is still pending and the value is not `None`; otherwise nothing changes |
| Runtime.ApplyFulfils | tutorial/runtime.py:46-52 | any number of completions never change a resolved node's value, a node's tag or label, or the registered variables; a pending node that some completion names with a readable payload takes the value of the first such payload; no other node changes |
| Runtime.OnData | tutorial/asyncoro.py:56-72 | bytes from a peer change only that peer's connection and the nodes it completes; the buffer gains exactly the tags of the frames the corrected loop cuts; the new graph is exactly the old one with the completed placeholders' payloads read into their nodes; it succeeds exactly when the connection ingests the bytes, and otherwise raises that error as a connection failure |
| Runtime.Rendezvous | tutorial/runtime.py:34-52 | whether the party asks for a node before or after the peer's frame arrives, the node ends resolved to the sent value |
| Runtime.Others | tutorial/runtime.py:194-195 | the other parties, in ascending pid order: every pid but the own one, each once |
| Runtime.ResolveInputs | tutorial/runtime.py:187-191 | the fed variables are resolved to their values in order; it raises exactly when some key is not a registered, still pending variable, and then the exception names the first such key and its kind, the keys before it are set, and every other node is unchanged |
| Runtime.BroadcastTo | tutorial/runtime.py:194-197 | one node's frame is written to each target in order; without an exception there is one write per target; it raises exactly when there is a target and the node has no frame (not fed, or not packable), then with that error and before any write |
| Runtime.SendAll | tutorial/runtime.py:193-197 | every write goes to a listed peer; without an exception every fed node was resolved and encodable; it completes exactly when there is no peer or every fed node has a frame |
| Runtime.SendAllCount | tutorial/runtime.py:193-197 | without an exception there is exactly one write per fed node and peer |
| Runtime.SendAllWrites | tutorial/runtime.py:193-197 | without an exception each fed node's frame is written to each peer |
| Runtime.Requests | tutorial/runtime.py:200-204 | the third loop asks only for the given nodes, and only of the given peers |
| Runtime.RequestsCover | tutorial/runtime.py:200-204 | every node is asked of every peer |
| Runtime.ReceiveEach | tutorial/runtime.py:200-204 | the requests in turn keep the party connected and only move it forward; without an exception every requested node is in the asked peer's buffer; distinct requests none of whose nodes has a slot yet at the asked peer all succeed |
| Runtime.UnaskedStep | tutorial/runtime.py:34-52 | `receive` of a node with no slot yet only installs its placeholder, so the remaining distinct requests still find no slot |
| Runtime.RequestsDistinct | tutorial/runtime.py:199-204 | distinct nodes asked of distinct peers make distinct requests |
| Runtime.Unfed | tutorial/runtime.py:199 | the registered variables not fed, in ascending order, each once |
| Runtime.Feed | tutorial/runtime.py:187-204 | `feed` writes nothing when some key is not a registered pending variable; it writes only to other parties; on success every fed variable holds its value; it completes whenever that condition holds (`Runtime.FeedCompletes`) |
| Runtime.FeedCompletes | tutorial/runtime.py:187-204 | `feed` completes when every key is a registered pending variable, every fed value packs into a frame, and no other party's buffer has a slot yet for a variable still to be asked for |
| Runtime.FeedSends | tutorial/runtime.py:187-197 | a completed `feed` resolved every fed variable before sending, and its writes are exactly those of the send loop |
| Runtime.FeedAnnounces | tutorial/runtime.py:193-197 | a completed `feed` wrote every fed value's frame to every other party |
| Runtime.FeedCount | tutorial/runtime.py:193-197 | a completed `feed` wrote exactly one frame per fed value and other party |
| Runtime.FeedReceives | tutorial/runtime.py:199-204 | a completed `feed` ends in the state its receive loop leaves, and that loop raised nothing |
| Runtime.FeedRequests | tutorial/runtime.py:199-204 | a completed `feed` asked every other party for every registered variable it was not given |
| Runtime.UnfedAsked | tutorial/runtime.py:199-204 | the receive loop asks every other party for every unfed variable |
| Runtime.Shutdown | tutorial/runtime.py:138-142 | `shutdown` closes exactly the connections to the other parties, one each, and never its own |
| Runtime.Dials | tutorial/runtime.py:116-120 | a party dials exactly the parties with a larger pid |
| Runtime.OneLinkPerPair | tutorial/runtime.py:110-120 | of any two parties the smaller pid dials and the larger, which listens, accepts; party i dials m-1-i parties and accepts from i |
| Config.SplitAddress | tutorial/__init__.py:137-138 | the host, `:` and the port join back to the argument, and the port holds no colon; without a colon the whole argument is the host and the port is empty |
| Config.SplitJoin | tutorial/__init__.py:137-138 | a host and a colon-free port joined by `:` split back into the same host and port |
| Config.AddressesFromParties | tutorial/__init__.py:133-141 | one address per argument, in order, each split at its last colon |
| Config.MakeParty | tutorial/__init__.py:147-157 | the party at position i has pid i, `localhost` for an empty host, and the base port plus i, the default port plus i, or the given port read as a number; it raises only when the given port is used and does not read as a number |
| Config.CreateParties | tutorial/__init__.py:144-158 | one party per address; the own pid is the last position with an empty host, or none when no host is empty; a failure names an address's position and its port text |
| Config.PartyPlaced | tutorial/__init__.py:147-157 | every party in the roster is the one configured at its position |
| Config.FirstBadPort | tutorial/__init__.py:151-156 | the roster fails exactly when no base port counts and some port text does not read as a number, and then it names the first such one |
| Config.ArgAddress | tutorial/__init__.py:137-138 | an argument `host:port` with the port written in decimal splits back into that host and a port text that reads as the same number |
| Config.RosterRoundTrip | tutorial/__init__.py:133-158 | arguments `host:port` with non-empty hosts and no base port become exactly the parties 0, 1, … with those hosts and port numbers, and no own party |
| Config.RosterOf | tutorial/__init__.py:144-158 | addresses with given hosts and readable port texts become exactly those parties, numbered by position |
| Decimal.Format | tutorial/runtime.py:181 | the decimal text of an integer starts with `-` exactly when it is negative, and is digits otherwise |
| Decimal.ParseInt | tutorial/__init__.py:156 | a text without any digit never reads as a number |
| Decimal.FormatRoundTrip | tutorial/__init__.py:156 | `int()` reads back every integer's decimal text as that integer |
| Decimal.ParseIgnoresSpace | tutorial/__init__.py:156 | white space around a number does not change what `int()` reads |
| Decimal.SeparatorRefused | tutorial/__init__.py:156 | an ASCII file separator in front of a number is not white space to `int()`, so the text is refused |

## Left out

- The asyncio event loop, tasks, futures and callbacks are not modelled as such. Resolution and delivery are explicit state transitions, and a callback runs when its placeholder is completed (`Runtime.OnData`).
- Sockets, `create_server` and `create_connection` are left out; writes and closes are returned as events. `close_connection` and `connection_lost` only touch the transport.
- The dial retry loop with `time.sleep(0.1)` (runtime.py:117-127) is left out: it is timing and network retries. `Runtime.Dials` states whom a party dials, and `Runtime.Listens` states who listens.
- `pickle` is a foreign serialiser, modelled as the `Codec` parameter. Values are integers; numpy arrays and floats are not modelled. `Graph.Apply` gives `None` where Python's `**` would give a float.
- Keyword arguments in Op labels (runtime.py:61) are left out: `add`, `mul` and `pow` are only called with two positional operands. `repr` of an operand is modelled for nodes and integers only.
- The order of `feed`'s third loop: the source walks a Python `set`, in hash order. The model asks in ascending creation order. Every request is still made (`Runtime.FeedRequests`).
- The runtime operations start after the barrier fires. At that point every other party has a connection and parties are numbered 0..m-1. A single party (m = 1) never completes the barrier, because the check runs only inside `handshake`, so `start` waits forever.
- Python's `int()` also accepts `_` between digits and non-ASCII decimal digits; `Decimal.ParseInt` does not. The roster functions take the reader as a parameter, and `Decimal.ParseInt` is supplied for it.
- `Party.__repr__`, logging, `run`, `__aenter__`/`__aexit__`, `main.py`, `setup`, `run_processes` and `get_addresses_from_config` (argparse, subprocesses and INI files) are not part of this model.
- `data_received` and `connection_made` when they raise: the model returns only the error. In the source, the frames delivered before the failing one keep their effects (their callbacks still resolve nodes), a handshake's registration and barrier stay in place, and a dialled connection has already written its pid byte before its handshake raises. asyncio then reports the exception and the party does not recover, so the partial state is not modelled (`Runtime.OnData`, `Exchanger.DataReceived`, `Exchanger.ConnectionMade`).
- Decimal.ParseInt: its own contract only says that a text without digits is refused. What it reads is stated by `Decimal.FormatRoundTrip` and `Decimal.ParseIgnoresSpace`.
- Runtime.FeedCompletes: states a sufficient condition, not an exact one. A raw payload already parked for a variable still to be asked for is read without raising, unless it loads to a value for a node already resolved; those cases are left to `Runtime.Receive`.
- Runtime.Requests: its contract states only membership. That every node is asked of every peer is `Runtime.RequestsCover`.

## Findings

| source | as written | input that shows it | evidently intended | confidence | as-written member | corrected member |
|---|---|---|---|---|---|---|
| tutorial/asyncoro.py:58 | each header is unpacked from the first six bytes of the current chunk `data`, which on an inbound connection still starts with the identity byte | identity 1, then an empty frame under tag 0, in one read: the frame is taken as tag 256 | the header is read from the accumulated buffer, after the identity byte | high, not executed | Framing.DrainAsWritten, Framing.PreambleShiftsHeader | Framing.Drain |
| tutorial/asyncoro.py:58 | the loop re-reads the same chunk's first header for every frame | frames (0, [7]) and (1, [8, 9]) in one read: the second is cut as (0, [8]) and [9] is left over; delivering tag 0 a second time then raises at tutorial/asyncoro.py:67-72: `AttributeError` on the raw bytes parked by the first frame, or `InvalidStateError` on a placeholder the first frame completed | every frame's header is read where that frame starts | high, not executed | Framing.DrainAsWritten, Framing.SecondHeaderRereadsFirst, Exchanger.RereadTagRaises | Framing.DrainEncoded |
| tutorial/asyncoro.py:58 | `struct.unpack('!HI', ...)` raises when the chunk holds fewer than six bytes | a header split 3 + 3 across two reads raises `struct.error` on the first read | fewer than six buffered bytes wait for the next read | high, not executed | Framing.DrainAsWritten, Framing.SplitHeaderRaises | Framing.DrainChunked |

=== FILE: base.dfy ===
/** Shared vocabulary: bytes, optional values and results with an error path. */
module Base {

  /** One octet, as carried on the wire. */
  type byte = b: int | 0 <= b < 256

  type Bytes = seq<byte>

  /** `None` stands for Python's `None`. */
  datatype Option<T> = None | Some(value: T)

  /** A computation that either yields a value or raises the exception named by `error`. */
  datatype Result<T, E> = Ok(value: T) | Err(error: E) {

    predicate IsFailure() {
      Err?
    }

    function PropagateFailure<U>(): Result<U, E>
      requires Err?
    {
      Err(error)
    }

    function Extract(): T
      requires Ok?
    {
      value
    }
  }
}

=== FILE: config.dfy ===
/**
  The party roster a runtime is configured with: `host:port` command-line
  addresses split into host and port, and the list of parties built from them,
  with the own party marked by an empty host.
 */
module Config {
  import opened Base
  import Decimal

  /** The position of the last `:` in `s`, if any. */
  function LastColon(s: string): (r: Option<nat>)
    ensures r.Some? ==> r.value < |s| && s[r.value] == ':' && forall j :: r.value < j < |s| ==> s[j] != ':'
    ensures r.None? ==> forall j :: 0 <= j < |s| ==> s[j] != ':'
  {
    if |s| == 0 then None
    else if s[|s| - 1] == ':' then Some(|s| - 1)
    else LastColon(s[..|s| - 1])
  }

  /**
    One address as `rsplit(':', maxsplit=1)` and the join of the remainder
    cut it: the text before and after the last colon, or the whole text and
    an empty port when there is no colon.
   */
  function SplitAddress(s: string): (r: (string, string))
    ensures ':' in s ==> r.0 + ":" + r.1 == s && ':' !in r.1
    ensures ':' !in s ==> r == (s, "")
  {
    match LastColon(s)
    case None => (s, "")
    case Some(k) =>
      assert s == s[..k] + ":" + s[k + 1..];
      (s[..k], s[k + 1..])
  }

  /** Splitting undoes joining: a host and a port without a colon come back as they were. */
  lemma SplitJoin(host: string, port: string)
    requires ':' !in port
    ensures SplitAddress(host + ":" + port) == (host, port)
  {
    var s := host + ":" + port;
    assert s[|host|] == ':';
    assert ':' in s;
    var (h, p) := SplitAddress(s);
    assert |p| == |port| by {
      assert s[|h|] == ':';
    }
    assert h == s[..|host|] == host;
  }

  /** `get_addresses_from_parties`: split every `host:port` argument, in order. */
  function AddressesFromParties(parties: seq<string>): (r: seq<(string, string)>)
    ensures |r| == |parties|
    ensures forall i :: 0 <= i < |parties| && ':' in parties[i] ==> r[i].0 + ":" + r[i].1 == parties[i] && ':' !in r[i].1
    ensures forall i :: 0 <= i < |parties| && ':' !in parties[i] ==> r[i] == (parties[i], "")
  {
    seq(|parties|, i requires 0 <= i < |parties| => SplitAddress(parties[i]))
  }

  /** A party of the roster: its pid, and where it listens. */
  datatype Party = Party(pid: nat, host: string, port: int)

  /** The parties, and the pid of the own party (the last one given with an empty host), if any. */
  datatype Roster = Roster(parties: seq<Party>, owner: Option<nat>)

  /** `int()` rejected a port given as text. */
  datatype ConfigError = BadPort(index: nat, text: string)

  /** The port of the first party when neither a base port nor a port is given. */
  const DefaultBasePort := 11365

  /** A base port counts only when given and non-zero, as Python's truth test has it. */
  predicate Overrides(basePort: Option<int>) {
    basePort.Some? && basePort.value != 0
  }

  /**
    How a port given as text becomes a number: `int()` in the program, which
    is `Decimal.ParseInt`. The roster functions take it as a parameter so that
    their proofs do not depend on how `int()` reads text.
   */
  type Reader = string -> Option<int>

  /** A port text `create_parties` would hand to `read` and `read` refuses. */
  predicate BadText(read: Reader, text: string) {
    text != "" && read(text).None?
  }

  /**
    Party `party` is the one configured at position `i` from `address`: its pid
    is the position, an empty host stands for `localhost`, and its port is the
    base port plus the position when a base port counts, else the number the
    port text reads as, else the default port plus the position.
   */
  predicate Placed(read: Reader, i: nat, address: (string, string), basePort: Option<int>, party: Party) {
    && party.pid == i
    && party.host == (if address.0 == "" then "localhost" else address.0)
    && (Overrides(basePort) ==> party.port == basePort.value + i)
    && (!Overrides(basePort) && address.1 == "" ==> party.port == DefaultBasePort + i)
    && (!Overrides(basePort) && address.1 != "" ==> read(address.1) == Some(party.port))
  }

  /** The party at position `i`, or the error `int()` raises on its port text. */
  function MakeParty(read: Reader, i: nat, address: (string, string), basePort: Option<int>): (r: Result<Party, ConfigError>)
    ensures r.Ok? ==> Placed(read, i, address, basePort, r.value)
    ensures r.Err? <==> !Overrides(basePort) && BadText(read, address.1)
    ensures r.Err? ==> r.error == BadPort(i, address.1)
  {
    var host := if address.0 == "" then "localhost" else address.0;
    if Overrides(basePort) then Ok(Party(i, host, basePort.value + i))
    else if address.1 == "" then Ok(Party(i, host, DefaultBasePort + i))
    else
      match read(address.1)
      case None => Err(BadPort(i, address.1))
      case Some(port) => Ok(Party(i, host, port))
  }

  /**
    `create_parties`: one party per address, numbered by position. The first
    port text `int()` refuses raises; a base port, when it counts, replaces
    every given port.
   */
  function CreateParties(read: Reader, addresses: seq<(string, string)>, basePort: Option<int>): (r: Result<Roster, ConfigError>)
    ensures r.Ok? ==> |r.value.parties| == |addresses|
    ensures r.Ok? ==> (r.value.owner.None? <==> forall i :: 0 <= i < |addresses| ==> addresses[i].0 != "")
    ensures r.Ok? && r.value.owner.Some? ==>
              && r.value.owner.value < |addresses| && addresses[r.value.owner.value].0 == ""
              && forall j :: r.value.owner.value < j < |addresses| ==> addresses[j].0 != ""
    ensures r.Err? ==> r.error.index < |addresses| && r.error.text == addresses[r.error.index].1
    decreases |addresses|
  {
    if |addresses| == 0 then Ok(Roster([], None))
    else
      var n := |addresses| - 1;
      var prefix := addresses[..n];
      assert forall i :: 0 <= i < n ==> prefix[i] == addresses[i];
      match CreateParties(read, prefix, basePort)
      case Err(e) => Err(e)
      case Ok(before) =>
        match MakeParty(read, n, addresses[n], basePort)
        case Err(e) => Err(e)
        case Ok(party) => Ok(Roster(before.parties + [party], if addresses[n].0 == "" then Some(n) else before.owner))
  }

  /** Every party of the roster is the one configured at its position. */
  lemma {:induction false} PartyPlaced(read: Reader, addresses: seq<(string, string)>, basePort: Option<int>, i: nat)
    requires CreateParties(read, addresses, basePort).Ok? && i < |addresses|
    ensures Placed(read, i, addresses[i], basePort, CreateParties(read, addresses, basePort).value.parties[i])
    decreases |addresses|
  {
    var n := |addresses| - 1;
    var prefix := addresses[..n];
    var before := CreateParties(read, prefix, basePort);
    var party := MakeParty(read, n, addresses[n], basePort);
    assert CreateParties(read, addresses, basePort).value.parties == before.value.parties + [party.value];
    if i < n {
      assert prefix[i] == addresses[i];
      PartyPlaced(read, prefix, basePort, i);
    }
  }

  /** `create_parties` raises exactly for the first port text `int()` refuses, unless a base port replaces them all. */
  lemma {:induction false} FirstBadPort(read: Reader, addresses: seq<(string, string)>, basePort: Option<int>)
    ensures CreateParties(read, addresses, basePort).Err? <==>
              !Overrides(basePort) && exists i :: 0 <= i < |addresses| && BadText(read, addresses[i].1)
    ensures CreateParties(read, addresses, basePort).Err? ==>
              var e := CreateParties(read, addresses, basePort).error;
              BadText(read, e.text) && forall j :: 0 <= j < e.index ==> !BadText(read, addresses[j].1)
    decreases |addresses|
  {
    if |addresses| > 0 {
      var n := |addresses| - 1;
      var prefix := addresses[..n];
      FirstBadPort(read, prefix, basePort);
      CreateStep(read, addresses, basePort);
      var whole := CreateParties(read, addresses, basePort);
      var before := CreateParties(read, prefix, basePort);
      var last := MakeParty(read, n, addresses[n], basePort);
      if before.Err? {
        var i :| 0 <= i < n && BadText(read, prefix[i].1);
        assert prefix[i] == addresses[i];
        assert forall j :: 0 <= j < before.error.index ==> prefix[j] == addresses[j];
      } else if last.Err? {
        assert forall j :: 0 <= j < n ==> prefix[j] == addresses[j];
      } else {
        assert forall j :: 0 <= j < n ==> prefix[j] == addresses[j];
        assert !exists i :: 0 <= i < |addresses| && BadText(read, addresses[i].1) && !Overrides(basePort);
      }
    }
  }

  /** One more address: `create_parties` raises where the earlier addresses raise, else where the new one does. */
  lemma CreateStep(read: Reader, addresses: seq<(string, string)>, basePort: Option<int>)
    requires |addresses| > 0
    ensures var n := |addresses| - 1;
            var before := CreateParties(read, addresses[..n], basePort);
            var last := MakeParty(read, n, addresses[n], basePort);
            && (before.Err? ==> CreateParties(read, addresses, basePort) == Err(before.error))
            && (before.Ok? && last.Err? ==> CreateParties(read, addresses, basePort) == Err(last.error))
            && (CreateParties(read, addresses, basePort).Ok? <==> before.Ok? && last.Ok?)
  {
  }

  /** One `host:port` argument with a port number written in decimal. */
  lemma ArgAddress(host: string, port: int)
    ensures SplitAddress(host + ":" + Decimal.Format(port)) == (host, Decimal.Format(port))
    ensures Decimal.Format(port) != "" && Decimal.ParseInt(Decimal.Format(port)) == Some(port)
  {
    var text := Decimal.Format(port);
    assert ':' !in text by {
      if port < 0 {
        assert text == "-" + Decimal.Digits(-port);
        assert forall j :: 1 <= j < |text| ==> text[j] == Decimal.Digits(-port)[j - 1];
      }
    }
    SplitJoin(host, text);
    Decimal.FormatRoundTrip(port);
  }

  /**
    From the command line to the roster: parties given as `host:port`, with
    non-empty hosts and no base port, come out numbered in order, with the
    hosts and port numbers written, and no own party among them.
   */
  lemma {:induction false} RosterRoundTrip(hosts: seq<string>, ports: seq<int>)
    requires |hosts| == |ports|
    requires forall i :: 0 <= i < |hosts| ==> hosts[i] != ""
    ensures var args := seq(|hosts|, i requires 0 <= i < |hosts| => hosts[i] + ":" + Decimal.Format(ports[i]));
            CreateParties(Decimal.ParseInt, AddressesFromParties(args), None)
              == Ok(Roster(seq(|hosts|, i requires 0 <= i < |hosts| => Party(i, hosts[i], ports[i])), None))
  {
    var args := seq(|hosts|, i requires 0 <= i < |hosts| => hosts[i] + ":" + Decimal.Format(ports[i]));
    var addresses := AddressesFromParties(args);
    forall i | 0 <= i < |hosts|
      ensures addresses[i] == (hosts[i], Decimal.Format(ports[i]))
      ensures addresses[i].1 != "" && Decimal.ParseInt(addresses[i].1) == Some(ports[i])
    {
      assert args[i] == hosts[i] + ":" + Decimal.Format(ports[i]);
      ArgAddress(hosts[i], ports[i]);
    }
    RosterOf(Decimal.ParseInt, addresses, hosts, ports);
  }

  /** Addresses whose hosts are given and whose port texts read as numbers become exactly those parties. */
  lemma {:induction false} RosterOf(read: Reader, addresses: seq<(string, string)>, hosts: seq<string>, ports: seq<int>)
    requires |addresses| == |hosts| == |ports|
    requires forall i :: 0 <= i < |hosts| ==> hosts[i] != "" && addresses[i].0 == hosts[i]
    requires forall i :: 0 <= i < |hosts| ==> addresses[i].1 != "" && read(addresses[i].1) == Some(ports[i])
    ensures CreateParties(read, addresses, None)
              == Ok(Roster(seq(|hosts|, i requires 0 <= i < |hosts| => Party(i, hosts[i], ports[i])), None))
    decreases |addresses|
  {
    var expected := seq(|hosts|, i requires 0 <= i < |hosts| => Party(i, hosts[i], ports[i]));
    if |addresses| > 0 {
      var n := |addresses| - 1;
      RosterOf(read, addresses[..n], hosts[..n], ports[..n]);
      var before := seq(n, i requires 0 <= i < n => Party(i, hosts[i], ports[i]));
      assert seq(n, i requires 0 <= i < n => Party(i, hosts[..n][i], ports[..n][i])) == before;
      assert CreateParties(read, addresses[..n], None) == Ok(Roster(before, None));
      assert MakeParty(read, n, addresses[n], None) == Ok(Party(n, hosts[n], ports[n]));
      assert before + [Party(n, hosts[n], ports[n])] == expected;
    }
  }
}

=== FILE: decimal.dfy ===
/**
  Decimal text of integers as Python renders and reads it: `str(n)` / `repr(n)`
  for an int, and `int(s)` for a string. Operation labels print constants with
  the first; port numbers given as text are read with the second.
 */
module Decimal {
  import opened Base

  predicate IsDigit(c: char) {
    '0' <= c <= '9'
  }

  predicate AllDigits(s: string) {
    forall i :: 0 <= i < |s| ==> IsDigit(s[i])
  }

  function DigitChar(d: nat): (c: char)
    requires d < 10
    ensures IsDigit(c)
  {
    (('0' as int) + d) as char
  }

  function DigitValue(c: char): (d: nat)
    requires IsDigit(c)
    ensures d < 10 && DigitChar(d) == c
  {
    (c as int) - ('0' as int)
  }

  /** The decimal digits of `n`, without leading zeros ("0" for zero). */
  function Digits(n: nat): (r: string)
    ensures |r| >= 1 && AllDigits(r)
    ensures |r| > 1 ==> r[0] != '0'
  {
    if n < 10 then [DigitChar(n)]
    else
      var high := Digits(n / 10);
      high + [DigitChar(n % 10)]
  }

  /** The number a string of decimal digits denotes (leading zeros allowed). */
  function ValueOf(s: string): nat
    requires AllDigits(s)
  {
    if |s| == 0 then 0 else ValueOf(s[..|s| - 1]) * 10 + DigitValue(s[|s| - 1])
  }

  lemma {:induction false} ValueOfDigits(n: nat)
    ensures ValueOf(Digits(n)) == n
  {
    if n >= 10 {
      var s := Digits(n);
      assert s[..|s| - 1] == Digits(n / 10);
      ValueOfDigits(n / 10);
    }
  }

  /** `str(n)`: a minus sign for negative numbers, then the digits of the magnitude. */
  function Format(n: int): (r: string)
    ensures |r| >= 1
    ensures r[0] == '-' <==> n < 0
    ensures n >= 0 ==> AllDigits(r)
  {
    if n < 0 then "-" + Digits(-n) else Digits(n)
  }

  /**
    The characters `int()` ignores around a number: the ASCII white space
    `\t \n \v \f \r` and space, and the non-ASCII white space it first turns
    into a space. The ASCII separators U+001C to U+001F, white space to
    `str.strip()`, are kept and make `int()` refuse the text.
   */
  predicate IsSpace(c: char) {
    var k := c as int;
    (9 <= k <= 13) || k == 32 || k == 0x85 || k == 0xA0 || k == 0x1680
    || (0x2000 <= k <= 0x200A) || k == 0x2028 || k == 0x2029 || k == 0x202F
    || k == 0x205F || k == 0x3000
  }

  function StripLeft(s: string): (r: string)
    ensures |r| <= |s| && r == s[|s| - |r|..]
    ensures |r| > 0 ==> !IsSpace(r[0])
  {
    if |s| > 0 && IsSpace(s[0]) then StripLeft(s[1..]) else s
  }

  function StripRight(s: string): (r: string)
    ensures |r| <= |s| && r == s[..|r|]
    ensures |r| > 0 ==> !IsSpace(r[|r| - 1])
  {
    if |s| > 0 && IsSpace(s[|s| - 1]) then StripRight(s[..|s| - 1]) else s
  }

  function Strip(s: string): string {
    StripRight(StripLeft(s))
  }

  /**
    `int(s)` on a string: surrounding white space is ignored, one optional sign
    is allowed, and the rest must be a non-empty run of decimal digits;
    anything else raises `ValueError`, modelled as `None`.
   */
  function ParseInt(s: string): (r: Option<int>)
    ensures (forall i :: 0 <= i < |s| ==> !IsDigit(s[i])) ==> r.None?
  {
    var t := Strip(s);
    var negative := |t| > 0 && t[0] == '-';
    var body := if |t| > 0 && (t[0] == '+' || t[0] == '-') then t[1..] else t;
    if |body| == 0 || !AllDigits(body) then None
    else
      assert body[0] in s by {
        assert body[0] in t;
        assert t == StripLeft(s)[..|t|];
      }
      var magnitude: int := ValueOf(body);
      Some(if negative then -magnitude else magnitude)
  }

  /** Python reads back every integer it prints: `int(str(n)) == n`. */
  lemma FormatRoundTrip(n: int)
    ensures ParseInt(Format(n)) == Some(n)
  {
    var s := Format(n);
    var magnitude := if n < 0 then -n else n;
    var digits := Digits(magnitude);
    ValueOfDigits(magnitude);
    assert !IsSpace(s[0]);
    assert StripLeft(s) == s;
    assert !IsSpace(s[|s| - 1]) by {
      if n < 0 {
        assert s[|s| - 1] == digits[|digits| - 1];
      }
    }
    assert StripRight(s) == s;
    if n < 0 {
      assert s[1..] == digits;
    }
  }

  /** White space around the number does not change what `int()` reads. */
  lemma {:induction false} ParseIgnoresSpace(front: string, s: string, back: string)
    requires forall i :: 0 <= i < |front| ==> IsSpace(front[i])
    requires forall i :: 0 <= i < |back| ==> IsSpace(back[i])
    requires |s| > 0 && !IsSpace(s[0]) && !IsSpace(s[|s| - 1])
    ensures ParseInt(front + s + back) == ParseInt(s)
  {
    var padded := front + s + back;
    StripLeftSpaces(front, s + back);
    assert padded == front + (s + back);
    StripRightSpaces(s, back);
    assert Strip(padded) == s;
    assert Strip(s) == s by {
      assert StripLeft(s) == s;
      assert StripRight(s) == s;
    }
    ParseSeesStripped(padded, s);
  }

  /** A file separator in front of a number is not white space to `int()`: the text is refused. */
  lemma SeparatorRefused()
    ensures ParseInt([28 as char] + "5") == None
  {
    var t: string := [28 as char] + "5";
    assert !IsSpace(t[0]) && !IsSpace(t[1]);
    assert StripLeft(t) == t;
    assert StripRight(t) == t;
    assert Strip(t) == t;
    assert !IsDigit(t[0]);
  }

  /** `int()` only looks at the stripped text. */
  lemma ParseSeesStripped(x: string, y: string)
    requires Strip(x) == Strip(y)
    ensures ParseInt(x) == ParseInt(y)
  {
  }

  lemma {:induction false} StripLeftSpaces(front: string, s: string)
    requires forall i :: 0 <= i < |front| ==> IsSpace(front[i])
    requires |s| > 0 && !IsSpace(s[0])
    ensures StripLeft(front + s) == s
  {
    if |front| > 0 {
      assert (front + s)[1..] == front[1..] + s;
      StripLeftSpaces(front[1..], s);
    } else {
      assert front + s == s;
    }
  }

  lemma {:induction false} StripRightSpaces(s: string, back: string)
    requires forall i :: 0 <= i < |back| ==> IsSpace(back[i])
    requires |s| > 0 && !IsSpace(s[|s| - 1])
    ensures StripRight(s + back) == s
  {
    if |back| > 0 {
      assert (s + back)[..|s + back| - 1] == s + back[..|back| - 1];
      StripRightSpaces(s, back[..|back| - 1]);
    } else {
      assert s + back == s;
    }
  }
}

=== FILE: exchanger.dfy ===
/**
  One peer connection (`VariableExchanger`): the identity byte sent by the
  dialling side, the registration of the connection in the party registry with
  its "all connected" barrier, and the delivery buffer that pairs each arriving
  payload with the request for its tag, whichever comes first.
 */
module Exchanger {
  import opened Base
  import opened Framing

  /** What the delivery buffer holds under one sequence tag. */
  datatype Slot =
    /** The payload arrived before anyone asked for it. */
    | Raw(payload: Bytes)
    /** `receive` installed a placeholder for node `node`; no payload yet. */
    | Waiting(node: nat)
    /** The placeholder for `node`, completed with `payload`; it stays in the buffer. */
    | Fulfilled(node: nat, payload: Bytes)

  type DeliveryBuffer = map<nat, Slot>

  /**
    The state of one connection: the peer's identity (unknown on an accepted
    connection until its first byte arrives), the bytes received but not yet
    framed, and the delivery buffer.
   */
  datatype Conn = Conn(peer: Option<nat>, pending: Bytes, buffer: DeliveryBuffer)

  /** A completed placeholder: its callback will hand `payload` to node `node`. */
  datatype Fulfil = Fulfil(node: nat, payload: Bytes)

  /** Exceptions raised while handling a connection; each one tears the connection down. */
  datatype ExchangeError =
    /** A second payload for a tag whose slot still holds raw bytes, which have no `set_result`. */
    | NoSetResult(tag: nat)
    /** A second payload for a placeholder already completed (`InvalidStateError`). */
    | AlreadyFulfilled(tag: nat)
    /** The own identity does not fit the one-byte preamble (`OverflowError`). */
    | PidOverflow(pid: nat)
    /** The peer identity indexes past the party list (`IndexError`). */
    | UnknownParty(pid: nat)
    /** The "connected" future was already completed (`InvalidStateError`). */
    | BarrierAlreadySet
    /** The own registry slot was overwritten by a connection, which has no `set_result`. */
    | SelfSlotOverwritten

  function NewConn(peer: Option<nat>): Conn {
    Conn(peer, [], map[])
  }

  // ---------------------------------------------------------------------------
  // Delivery buffer

  /**
    Hand one decoded frame to the delivery buffer: a waiting placeholder is
    completed with the payload, otherwise the raw payload is parked under the
    tag. A tag that already received a payload on this connection is refused.
   */
  function Deliver(buffer: DeliveryBuffer, msg: Message): (r: Result<(DeliveryBuffer, Option<Fulfil>), ExchangeError>)
    ensures r.Ok? <==> msg.tag !in buffer || buffer[msg.tag].Waiting?
    ensures r.Ok? ==> r.value.0.Keys == buffer.Keys + {msg.tag}
    ensures r.Ok? ==> forall t :: t in buffer && t != msg.tag ==> r.value.0[t] == buffer[t]
    ensures r.Ok? ==> HasPayload(r.value.0[msg.tag], msg.payload)
    ensures msg.tag !in buffer ==> r == Ok((buffer[msg.tag := Raw(msg.payload)], None))
    ensures r.Ok? ==> (r.value.1.Some? <==> msg.tag in buffer)
    ensures r.Ok? && msg.tag in buffer ==>
              r.value.1 == Some(Fulfil(buffer[msg.tag].node, msg.payload))
              && r.value.0[msg.tag] == Fulfilled(buffer[msg.tag].node, msg.payload)
  {
    if msg.tag !in buffer then Ok((buffer[msg.tag := Raw(msg.payload)], None))
    else
      match buffer[msg.tag]
      case Waiting(node) =>
        Ok((buffer[msg.tag := Fulfilled(node, msg.payload)], Some(Fulfil(node, msg.payload))))
      case Raw(_) => Err(NoSetResult(msg.tag))
      case Fulfilled(_, _) => Err(AlreadyFulfilled(msg.tag))
  }

  /** The slot carries `payload`, parked or delivered to its placeholder. */
  predicate HasPayload(slot: Slot, payload: Bytes) {
    (slot.Raw? || slot.Fulfilled?) && slot.payload == payload
  }

  /** At most one payload per tag and connection: once a tag has received one, the next is refused. */
  lemma DeliverOnce(buffer: DeliveryBuffer, first: Message, second: Message)
    requires Deliver(buffer, first).Ok?
    requires second.tag == first.tag
    ensures Deliver(Deliver(buffer, first).value.0, second).Err?
  {
  }

  /** The tags a sequence of frames carries. */
  function Tags(msgs: seq<Message>): (r: set<nat>)
    ensures forall t :: t in r <==> exists k :: 0 <= k < |msgs| && msgs[k].tag == t
    decreases |msgs|
  {
    if |msgs| == 0 then {}
    else
      var r := {msgs[0].tag} + Tags(msgs[1..]);
      assert forall k :: 0 < k < |msgs| ==> msgs[k] == msgs[1..][k - 1];
      r
  }

  /**
    Every frame can be delivered: its tag is new to the buffer or has a
    placeholder waiting, and no two frames share a tag.
   */
  predicate Deliverable(buffer: DeliveryBuffer, msgs: seq<Message>) {
    && (forall k :: 0 <= k < |msgs| ==> msgs[k].tag !in buffer || buffer[msgs[k].tag].Waiting?)
    && (forall j, k :: 0 <= j < k < |msgs| ==> msgs[j].tag != msgs[k].tag)
  }

  /** The slot a delivered frame leaves: its placeholder completed with the payload, or the payload parked. */
  function Landed(buffer: DeliveryBuffer, msg: Message): Slot {
    if msg.tag in buffer && buffer[msg.tag].Waiting? then Fulfilled(buffer[msg.tag].node, msg.payload) else Raw(msg.payload)
  }

  /**
    Deliver frames in arrival order, collecting the placeholders they complete.
    The first frame that cannot be delivered raises; otherwise every frame's
    payload lands under its tag, and each waiting placeholder a frame names is
    completed.
   */
  function DeliverAll(buffer: DeliveryBuffer, msgs: seq<Message>): (r: Result<(DeliveryBuffer, seq<Fulfil>), ExchangeError>)
    ensures r.Ok? <==> Deliverable(buffer, msgs)
    ensures r.Ok? ==> r.value.0.Keys == buffer.Keys + Tags(msgs)
    ensures r.Ok? ==> forall t :: t in buffer && buffer[t].Raw? ==> r.value.0[t] == buffer[t]
    ensures r.Ok? ==> DeliveredAs(buffer, msgs, r.value.0, r.value.1)
    ensures r.Ok? ==> |r.value.1| <= |msgs|
    decreases |msgs|
  {
    if |msgs| == 0 then Ok((buffer, []))
    else
      DeliverableStep(buffer, msgs);
      var first :- Deliver(buffer, msgs[0]);
      var rest :- DeliverAll(first.0, msgs[1..]);
      var done := (if first.1.Some? then [first.1.value] else []) + rest.1;
      DeliveredStep(buffer, msgs, first.0, first.1, rest.0, rest.1, done);
      Ok((rest.0, done))
  }

  /**
    `rb` and `rf` are what delivering `msgs` into `buffer` leaves: the keys grow
    by the frames' tags, a slot no frame names keeps its contents, each frame's
    payload lands under its tag, and the completions are, in frame order, those
    of the frames that found a placeholder waiting.
   */
  predicate DeliveredAs(buffer: DeliveryBuffer, msgs: seq<Message>, rb: DeliveryBuffer, rf: seq<Fulfil>) {
    && rb.Keys == buffer.Keys + Tags(msgs)
    && (forall t :: t in buffer && t !in Tags(msgs) ==> rb[t] == buffer[t])
    && (forall k :: 0 <= k < |msgs| ==> msgs[k].tag in rb && rb[msgs[k].tag] == Landed(buffer, msgs[k]))
    && rf == Completions(buffer, msgs)
  }

  /** The completion a frame brings when a placeholder waits under its tag in `buffer`. */
  function Completion(buffer: DeliveryBuffer, msg: Message): seq<Fulfil> {
    if msg.tag in buffer && buffer[msg.tag].Waiting? then [Fulfil(buffer[msg.tag].node, msg.payload)] else []
  }

  /**
    The completions the frames bring against the placeholders of `buffer`, in
    frame order: each frame whose tag has a placeholder waiting completes it.
   */
  function Completions(buffer: DeliveryBuffer, msgs: seq<Message>): (r: seq<Fulfil>)
    ensures |r| <= |msgs|
    ensures forall k :: 0 <= k < |msgs| && msgs[k].tag in buffer && buffer[msgs[k].tag].Waiting? ==>
              Fulfil(buffer[msgs[k].tag].node, msgs[k].payload) in r
    decreases |msgs|
  {
    if |msgs| == 0 then []
    else
      assert forall k :: 0 < k < |msgs| ==> msgs[k] == msgs[1..][k - 1];
      Completion(buffer, msgs[0]) + Completions(buffer, msgs[1..])
  }

  /** Two buffers that agree on the slots the frames name give the same completions. */
  lemma {:induction false} CompletionsAgree(a: DeliveryBuffer, b: DeliveryBuffer, msgs: seq<Message>)
    requires forall k :: 0 <= k < |msgs| ==> (msgs[k].tag in a <==> msgs[k].tag in b)
    requires forall k :: 0 <= k < |msgs| && msgs[k].tag in a ==> a[msgs[k].tag] == b[msgs[k].tag]
    ensures Completions(a, msgs) == Completions(b, msgs)
    decreases |msgs|
  {
    if |msgs| > 0 {
      assert forall k :: 0 <= k < |msgs| - 1 ==> msgs[1..][k] == msgs[k + 1];
      CompletionsAgree(a, b, msgs[1..]);
    }
  }

  /** Every completion names a node whose placeholder was in the buffer. */
  lemma {:induction false} CompletionsBelow(buffer: DeliveryBuffer, msgs: seq<Message>, n: nat)
    requires PlaceholdersBelow(buffer, n)
    ensures forall i :: 0 <= i < |Completions(buffer, msgs)| ==> Completions(buffer, msgs)[i].node < n
    decreases |msgs|
  {
    if |msgs| > 0 {
      CompletionsBelow(buffer, msgs[1..], n);
    }
  }

  /** One frame delivered, then the rest: what delivering the rest leaves is what delivering them all leaves. */
  lemma DeliveredStep(buffer: DeliveryBuffer, msgs: seq<Message>, fb: DeliveryBuffer, ff: Option<Fulfil>,
                      rb: DeliveryBuffer, rf: seq<Fulfil>, done: seq<Fulfil>)
    requires |msgs| > 0 && Deliverable(buffer, msgs)
    requires Deliver(buffer, msgs[0]) == Ok((fb, ff))
    requires done == (if ff.Some? then [ff.value] else []) + rf
    requires DeliveredAs(fb, msgs[1..], rb, rf)
    ensures DeliveredAs(buffer, msgs, rb, done)
  {
    StepKeys(buffer, msgs, fb, ff, rb, rf);
    StepLanded(buffer, msgs, fb, ff, rb, rf);
    StepCompletions(buffer, msgs, fb, ff, rf, done);
  }

  /** The frames can all be delivered exactly when the first can and the rest can after it. */
  lemma DeliverableStep(buffer: DeliveryBuffer, msgs: seq<Message>)
    requires |msgs| > 0
    ensures Deliverable(buffer, msgs) <==>
              Deliver(buffer, msgs[0]).Ok? && Deliverable(Deliver(buffer, msgs[0]).value.0, msgs[1..])
  {
    assert forall k :: 0 < k < |msgs| ==> msgs[k] == msgs[1..][k - 1];
    if Deliver(buffer, msgs[0]).Ok? {
      var after := Deliver(buffer, msgs[0]).value.0;
      if Deliverable(after, msgs[1..]) {
        forall k | 0 < k < |msgs|
          ensures msgs[k].tag != msgs[0].tag
          ensures msgs[k].tag !in buffer || buffer[msgs[k].tag].Waiting?
        {
          assert msgs[1..][k - 1] == msgs[k];
        }
        forall j, k | 0 <= j < k < |msgs|
          ensures msgs[j].tag != msgs[k].tag
        {
          if j > 0 {
            assert msgs[1..][j - 1] == msgs[j] && msgs[1..][k - 1] == msgs[k];
          }
        }
      }
    }
  }

  /** The first frame's tag comes back in no later frame. */
  lemma FirstTagOnce(buffer: DeliveryBuffer, msgs: seq<Message>)
    requires |msgs| > 0 && Deliverable(buffer, msgs)
    ensures Tags(msgs) == {msgs[0].tag} + Tags(msgs[1..])
    ensures msgs[0].tag !in Tags(msgs[1..])
    ensures forall k :: 0 < k < |msgs| ==> msgs[1..][k - 1] == msgs[k] && msgs[k].tag != msgs[0].tag
  {
    forall k | 0 <= k < |msgs[1..]|
      ensures msgs[1..][k].tag != msgs[0].tag
    {
      assert msgs[1..][k] == msgs[k + 1];
    }
  }

  /** One frame delivered, then the rest: the buffer's keys grow by the tags, and other slots keep their contents. */
  lemma StepKeys(buffer: DeliveryBuffer, msgs: seq<Message>, fb: DeliveryBuffer, ff: Option<Fulfil>, rb: DeliveryBuffer, rf: seq<Fulfil>)
    requires |msgs| > 0 && Deliverable(buffer, msgs)
    requires Deliver(buffer, msgs[0]) == Ok((fb, ff))
    requires DeliveredAs(fb, msgs[1..], rb, rf)
    ensures rb.Keys == buffer.Keys + Tags(msgs)
    ensures forall t :: t in buffer && t !in Tags(msgs) ==> rb[t] == buffer[t]
  {
    FirstTagOnce(buffer, msgs);
  }

  /** One frame delivered, then the rest: every frame's payload lands under its tag. */
  lemma StepLanded(buffer: DeliveryBuffer, msgs: seq<Message>, fb: DeliveryBuffer, ff: Option<Fulfil>, rb: DeliveryBuffer, rf: seq<Fulfil>)
    requires |msgs| > 0 && Deliverable(buffer, msgs)
    requires Deliver(buffer, msgs[0]) == Ok((fb, ff))
    requires DeliveredAs(fb, msgs[1..], rb, rf)
    ensures forall k :: 0 <= k < |msgs| ==> msgs[k].tag in rb && rb[msgs[k].tag] == Landed(buffer, msgs[k])
  {
    FirstTagOnce(buffer, msgs);
    forall k | 0 < k < |msgs|
      ensures msgs[k].tag in rb && rb[msgs[k].tag] == Landed(buffer, msgs[k])
    {
      assert msgs[k].tag in rb && rb[msgs[k].tag] == Landed(fb, msgs[1..][k - 1]);
    }
  }

  /** One frame delivered, then the rest: the first frame's completion comes first, then those of the rest. */
  lemma StepCompletions(buffer: DeliveryBuffer, msgs: seq<Message>, fb: DeliveryBuffer, ff: Option<Fulfil>,
                        rf: seq<Fulfil>, done: seq<Fulfil>)
    requires |msgs| > 0 && Deliverable(buffer, msgs)
    requires Deliver(buffer, msgs[0]) == Ok((fb, ff))
    requires done == (if ff.Some? then [ff.value] else []) + rf
    requires rf == Completions(fb, msgs[1..])
    ensures done == Completions(buffer, msgs)
  {
    FirstTagOnce(buffer, msgs);
    CompletionsAgree(fb, buffer, msgs[1..]);
    assert (if ff.Some? then [ff.value] else []) == Completion(buffer, msgs[0]);
  }

  /** Every placeholder in the buffer, waiting or completed, belongs to a node below `n`. */
  predicate PlaceholdersBelow(buffer: DeliveryBuffer, n: nat) {
    forall t :: t in buffer && !buffer[t].Raw? ==> buffer[t].node < n
  }

  /** Delivery creates no placeholder: the nodes it completes are ones that were waiting. */
  lemma DeliverAllBelow(buffer: DeliveryBuffer, msgs: seq<Message>, n: nat)
    requires PlaceholdersBelow(buffer, n) && DeliverAll(buffer, msgs).Ok?
    ensures PlaceholdersBelow(DeliverAll(buffer, msgs).value.0, n)
    ensures forall i :: 0 <= i < |DeliverAll(buffer, msgs).value.1| ==> DeliverAll(buffer, msgs).value.1[i].node < n
  {
    var (rb, rf) := DeliverAll(buffer, msgs).value;
    assert DeliveredAs(buffer, msgs, rb, rf);
    forall t | t in rb && !rb[t].Raw?
      ensures rb[t].node < n
    {
      if t in Tags(msgs) {
        var k :| 0 <= k < |msgs| && msgs[k].tag == t;
        assert rb[t] == Landed(buffer, msgs[k]);
      }
    }
    CompletionsBelow(buffer, msgs, n);
  }

  /** What one read of an established connection leaves: the connection, the frames cut, the placeholders completed. */
  datatype Ingested = Ingested(conn: Conn, frames: seq<Message>, fulfils: seq<Fulfil>)

  /** Received bytes on an established connection: frame them, then deliver the complete frames. */
  function Ingest(c: Conn, data: Bytes): (r: Result<Ingested, ExchangeError>)
    ensures r.Ok? ==> r.value.conn.peer == c.peer
    ensures r.Ok? ==> (r.value.frames, r.value.conn.pending) == Drain(c.pending + data)
    ensures r.Ok? ==> r.value.conn.buffer.Keys == c.buffer.Keys + Tags(r.value.frames)
    ensures r.Ok? <==> DeliverAll(c.buffer, Drain(c.pending + data).0).Ok?
    ensures r.Ok? ==> DeliverAll(c.buffer, r.value.frames) == Ok((r.value.conn.buffer, r.value.fulfils))
  {
    var (msgs, rest) := Drain(c.pending + data);
    var delivered :- DeliverAll(c.buffer, msgs);
    Ok(Ingested(Conn(c.peer, rest, delivered.0), msgs, delivered.1))
  }

  // ---------------------------------------------------------------------------
  // Party registry and the "all connected" barrier

  /** A party's `protocol` attribute as the handshake sees it. */
  datatype Link =
    /** `None`: no connection registered yet. */
    | Vacant
    /** The own slot: the "connected" future, and whether it has completed. */
    | Barrier(fired: bool)
    /** The connection registered for that party. */
    | Linked(conn: nat)

  predicate AllPresent(reg: seq<Link>) {
    forall i :: 0 <= i < |reg| ==> !reg[i].Vacant?
  }

  /** The registry once `start` has put the "connected" future in the own slot. */
  function StartRegistry(m: nat, selfPid: nat): seq<Link> {
    seq(m, i => if i == selfPid then Barrier(false) else Vacant)
  }

  /**
    Register connection `conn` as the link to `peer`; when every slot is then
    filled, complete the "connected" future held in the own slot. A peer that
    claims the own pid overwrites that future with the connection, so the
    barrier can no longer complete and raises once every slot is filled.
   */
  function Handshake(reg: seq<Link>, selfPid: nat, peer: nat, conn: nat): (r: Result<seq<Link>, ExchangeError>)
    requires selfPid < |reg|
    ensures peer >= |reg| ==> r == Err(UnknownParty(peer))
    ensures r.Ok? ==> |r.value| == |reg| && r.value[peer] == Linked(conn)
    ensures r.Ok? ==> forall i :: 0 <= i < |reg| && i != peer && i != selfPid ==> r.value[i] == reg[i]
    ensures r.Ok? && peer != selfPid && reg[selfPid] == Barrier(false) ==>
              (r.value[selfPid] == Barrier(true) <==> AllPresent(reg[peer := Linked(conn)]))
    ensures peer < |reg| && !AllPresent(reg[peer := Linked(conn)]) ==> r == Ok(reg[peer := Linked(conn)])
    ensures peer < |reg| && AllPresent(reg[peer := Linked(conn)]) ==>
              var linked := reg[peer := Linked(conn)];
              && (linked[selfPid] == Barrier(false) ==> r == Ok(linked[selfPid := Barrier(true)]))
              && (linked[selfPid] == Barrier(true) ==> r == Err(BarrierAlreadySet))
              && (!linked[selfPid].Barrier? ==> r == Err(SelfSlotOverwritten))
  {
    if peer >= |reg| then Err(UnknownParty(peer))
    else
      var linked := reg[peer := Linked(conn)];
      if !AllPresent(linked) then Ok(linked)
      else
        match linked[selfPid]
        case Barrier(false) => Ok(linked[selfPid := Barrier(true)])
        case Barrier(true) => Err(BarrierAlreadySet)
        case _ => Err(SelfSlotOverwritten)
  }

  /**
    `connection_made`. A dialled connection knows its peer: it writes the own
    identity as one byte, then registers itself. An accepted connection writes
    nothing and waits for the peer's identity byte.
   */
  function ConnectionMade(reg: seq<Link>, selfPid: nat, peer: Option<nat>, conn: nat): (r: Result<(Bytes, seq<Link>), ExchangeError>)
    requires selfPid < |reg|
    ensures peer.None? ==> r == Ok(([], reg))
    ensures peer.Some? && selfPid >= 256 ==> r == Err(PidOverflow(selfPid))
    ensures peer.Some? && selfPid < 256 ==> (r.Ok? <==> Handshake(reg, selfPid, peer.value, conn).Ok?)
    ensures r.Ok? && peer.Some? ==> r.value.0 == [selfPid] && Handshake(reg, selfPid, peer.value, conn) == Ok(r.value.1)
  {
    if peer.None? then Ok(([], reg))
    else if selfPid >= 256 then Err(PidOverflow(selfPid))
    else
      var linked :- Handshake(reg, selfPid, peer.value, conn);
      Ok(([selfPid as byte], linked))
  }

  /** What one read leaves behind: the connection, the registry, the frames cut and the placeholders completed. */
  datatype Received = Received(conn: Conn, reg: seq<Link>, frames: seq<Message>, fulfils: seq<Fulfil>)

  /** The pid an accepted connection reads from its first buffered byte. */
  function Identity(bytes: Bytes): (pid: nat)
    ensures |bytes| > 0 ==> pid == bytes[0]
    ensures pid < 256
  {
    if |bytes| == 0 then 0 else bytes[0]
  }

  /** An accepted connection once the identity byte in front of `data` names its peer: nothing pending yet, the buffer kept. */
  function Accepted(c: Conn, data: Bytes): (a: Conn)
    ensures a.peer == Some(Identity(c.pending + data)) && a.pending == [] && a.buffer == c.buffer
  {
    Conn(Some(Identity(c.pending + data)), [], c.buffer)
  }

  /** The bytes an accepted connection frames after taking the identity byte off the front. */
  function AfterPreamble(bytes: Bytes): Bytes {
    if |bytes| == 0 then [] else bytes[1..]
  }

  /**
    `data_received`, with the receive loop reading headers from the accumulated
    buffer and waiting while fewer than six bytes are buffered. On an accepted
    connection the first buffered byte is the peer's identity: it is consumed
    once and the connection registers itself under it.
   */
  function DataReceived(c: Conn, reg: seq<Link>, selfPid: nat, conn: nat, data: Bytes): (r: Result<Received, ExchangeError>)
    requires selfPid < |reg|
    ensures r.Ok? ==> r.value.conn.peer.Some?
    ensures r.Ok? && c.peer.Some? ==> r.value.conn.peer == c.peer && r.value.reg == reg
    ensures r.Ok? && c.peer.None? && |c.pending + data| > 0 ==>
              r.value.conn.peer == Some((c.pending + data)[0] as nat)
              && Handshake(reg, selfPid, (c.pending + data)[0], conn) == Ok(r.value.reg)
    ensures r.Ok? ==>
              var stream := if c.peer.Some? then c.pending + data else AfterPreamble(c.pending + data);
              (r.value.frames, r.value.conn.pending) == Drain(stream)
    ensures c.peer.Some? ==> (r.Ok? <==> Ingest(c, data).Ok?)
    ensures r.Ok? && c.peer.Some? ==> Ingest(c, data) == Ok(Ingested(r.value.conn, r.value.frames, r.value.fulfils))
    ensures c.peer.None? ==>
              (r.Ok? <==> Handshake(reg, selfPid, Identity(c.pending + data), conn).Ok?
                          && Ingest(Accepted(c, data), AfterPreamble(c.pending + data)).Ok?)
    ensures r.Ok? && c.peer.None? ==>
              Ingest(Accepted(c, data), AfterPreamble(c.pending + data)) == Ok(Ingested(r.value.conn, r.value.frames, r.value.fulfils))
  {
    if c.peer.Some? then
      var got :- Ingest(c, data);
      Ok(Received(got.conn, reg, got.frames, got.fulfils))
    else
      var bytes := c.pending + data;
      var linked :- Handshake(reg, selfPid, Identity(bytes), conn);
      var got :- Ingest(Accepted(c, data), AfterPreamble(bytes));
      assert [] + AfterPreamble(bytes) == AfterPreamble(bytes);
      Ok(Received(got.conn, linked, got.frames, got.fulfils))
  }

  /**
    The identity byte is taken only from the first read of an accepted
    connection: two reads frame the same bytes as one read of both chunks.
   */
  lemma PreambleOnce(reg: seq<Link>, selfPid: nat, conn: nat, a: Bytes, b: Bytes)
    requires selfPid < |reg| && |a| > 0
    requires DataReceived(NewConn(None), reg, selfPid, conn, a).Ok?
    ensures var first := DataReceived(NewConn(None), reg, selfPid, conn, a).value;
            var second := DataReceived(first.conn, first.reg, selfPid, conn, b);
            second.Ok? ==>
              first.frames + second.value.frames == Drain(a[1..] + b).0
              && second.value.conn.pending == Drain(a[1..] + b).1
  {
    var first := DataReceived(NewConn(None), reg, selfPid, conn, a).value;
    assert [] + a == a;
    assert AfterPreamble(a) == a[1..];
    assert (first.frames, first.conn.pending) == Drain(a[1..]) && first.conn.peer.Some?;
    var second := DataReceived(first.conn, first.reg, selfPid, conn, b);
    if second.Ok? {
      assert (second.value.frames, second.value.conn.pending) == Drain(first.conn.pending + b);
      DrainChunked(a[1..], b);
    }
  }

  /**
    The frames the as-written loop cuts from one read of two frames both carry
    the first tag, so delivering them raises at the second: on raw bytes that
    arrived unasked there is no `set_result`, and a placeholder completed by the
    first frame cannot be completed again.
   */
  lemma RereadTagRaises()
    ensures var stream := Encode(Message(0, [7])) + Encode(Message(1, [8, 9]));
            var cut := DrainAsWritten(stream, stream);
            && cut.Ok?
            && DeliverAll(map[], cut.value.0) == Err(NoSetResult(0))
            && DeliverAll(map[0 := Waiting(0)], cut.value.0) == Err(AlreadyFulfilled(0))
  {
    SecondHeaderRereadsFirst();
    var msgs := [Message(0, [7]), Message(0, [8])];
    assert msgs[1..] == [Message(0, [8])];
    assert Deliver(map[], msgs[0]) == Ok((map[0 := Raw([7])], None));
    assert DeliverAll(map[0 := Raw([7])], msgs[1..]) == Err(NoSetResult(0));
    assert DeliverAll(map[0 := Fulfilled(0, [7])], msgs[1..]) == Err(AlreadyFulfilled(0));
  }

  /**
    The identity byte round trip: what the dialling side writes on connecting,
    followed by frames, makes the accepting side register the dialler's pid
    and read exactly those frames, keeping an incomplete tail for later.
   */
  lemma PreambleRoundTrip(dialReg: seq<Link>, dialler: nat, acceptor: nat, dialConn: nat, written: Bytes, linked: seq<Link>,
                          acceptReg: seq<Link>, acceptConn: nat, msgs: seq<Message>, rest: Bytes)
    requires dialler < |dialReg| && acceptor < |acceptReg|
    requires ConnectionMade(dialReg, dialler, Some(acceptor), dialConn) == Ok((written, linked))
    requires forall i :: 0 <= i < |msgs| ==> Encodable(msgs[i])
    requires Leftover(rest)
    ensures var r := DataReceived(NewConn(None), acceptReg, acceptor, acceptConn, written + EncodeAll(msgs) + rest);
            && (r.Ok? ==> r.value.conn.peer == Some(dialler) && r.value.frames == msgs && r.value.conn.pending == rest
                          && Handshake(acceptReg, acceptor, dialler, acceptConn) == Ok(r.value.reg))
            && (Handshake(acceptReg, acceptor, dialler, acceptConn).Err? ==> r.Err?)
  {
    assert dialler < 256 && written == [dialler as byte];
    AcceptedStream(acceptReg, acceptor, acceptConn, dialler as byte, msgs, rest);
  }

  /** The first read of an accepted connection: the identity byte names the peer, and the frames after it are read. */
  lemma AcceptedStream(reg: seq<Link>, selfPid: nat, conn: nat, peer: byte, msgs: seq<Message>, rest: Bytes)
    requires selfPid < |reg|
    requires forall i :: 0 <= i < |msgs| ==> Encodable(msgs[i])
    requires Leftover(rest)
    ensures var r := DataReceived(NewConn(None), reg, selfPid, conn, [peer] + EncodeAll(msgs) + rest);
            && (r.Ok? ==> r.value.conn.peer == Some(peer) && r.value.frames == msgs && r.value.conn.pending == rest
                          && Handshake(reg, selfPid, peer, conn) == Ok(r.value.reg))
            && (Handshake(reg, selfPid, peer, conn).Err? ==> r.Err?)
  {
    var bytes := [peer] + EncodeAll(msgs) + rest;
    assert NewConn(None).pending + bytes == bytes;
    DropIdentity(peer, EncodeAll(msgs), rest);
    DrainEncoded(msgs, rest);
    HandshakeRefused(reg, selfPid, conn, bytes);
  }

  lemma DropIdentity(peer: byte, frames: Bytes, rest: Bytes)
    ensures ([peer] + frames + rest)[0] == peer
    ensures AfterPreamble([peer] + frames + rest) == frames + rest
  {
    assert [peer] + frames + rest == [peer] + (frames + rest);
  }

  /** An accepted connection whose handshake raises raises on its first read. */
  lemma HandshakeRefused(reg: seq<Link>, selfPid: nat, conn: nat, bytes: Bytes)
    requires selfPid < |reg| && |bytes| > 0
    ensures Handshake(reg, selfPid, bytes[0], conn).Err? ==> DataReceived(NewConn(None), reg, selfPid, conn, bytes).Err?
  {
    assert NewConn(None).pending + bytes == bytes;
  }

  // ---------------------------------------------------------------------------
  // The barrier over a whole start-up

  /** Handshakes of `peers`, in order, each on the connection numbered by its peer. */
  function HandshakeAll(reg: seq<Link>, selfPid: nat, peers: seq<nat>): (r: Result<seq<Link>, ExchangeError>)
    requires selfPid < |reg|
    ensures r.Ok? ==> |r.value| == |reg|
    decreases |peers|
  {
    if |peers| == 0 then Ok(reg)
    else
      var before :- HandshakeAll(reg, selfPid, peers[..|peers| - 1]);
      Handshake(before, selfPid, peers[|peers| - 1], peers[|peers| - 1])
  }

  function VacantCount(reg: seq<Link>): nat {
    if |reg| == 0 then 0 else (if reg[0].Vacant? then 1 else 0) + VacantCount(reg[1..])
  }

  lemma {:induction false} NoVacancy(reg: seq<Link>)
    ensures AllPresent(reg) <==> VacantCount(reg) == 0
  {
    if |reg| > 0 {
      NoVacancy(reg[1..]);
      if AllPresent(reg[1..]) && !reg[0].Vacant? {
        forall i | 0 <= i < |reg| ensures !reg[i].Vacant? {
          if i > 0 {
            assert reg[i] == reg[1..][i - 1];
          }
        }
      }
      if AllPresent(reg) {
        forall i | 0 <= i < |reg[1..]| ensures !reg[1..][i].Vacant? {
          assert reg[1..][i] == reg[i + 1];
        }
      }
    }
  }

  lemma {:induction false} FillOne(reg: seq<Link>, p: nat, link: Link)
    requires p < |reg| && reg[p].Vacant? && !link.Vacant?
    ensures VacantCount(reg[p := link]) + 1 == VacantCount(reg)
  {
    if p > 0 {
      assert reg[p := link][1..] == reg[1..][p - 1 := link];
      FillOne(reg[1..], p - 1, link);
    }
  }

  lemma {:induction false} ReplaceFilled(reg: seq<Link>, p: nat, link: Link)
    requires p < |reg| && !reg[p].Vacant? && !link.Vacant?
    ensures VacantCount(reg[p := link]) == VacantCount(reg)
  {
    if p > 0 {
      assert reg[p := link][1..] == reg[1..][p - 1 := link];
      ReplaceFilled(reg[1..], p - 1, link);
    }
  }

  lemma {:induction false} StartVacancies(m: nat, selfPid: nat)
    requires selfPid < m
    ensures VacantCount(StartRegistry(m, selfPid)) == m - 1
  {
    var reg := StartRegistry(m, selfPid);
    var allVacant := seq(m, i => Vacant);
    assert reg == allVacant[selfPid := Barrier(false)];
    AllVacant(m);
    FillOne(allVacant, selfPid, Barrier(false));
  }

  lemma {:induction false} AllVacant(m: nat)
    ensures VacantCount(seq(m, i => Vacant)) == m
  {
    if m > 0 {
      assert seq(m, i => Vacant)[1..] == seq(m - 1, i => Vacant);
      AllVacant(m - 1);
    }
  }

  /** The registry after the handshakes of distinct peers `peers`, with the barrier flag `fired`. */
  function Expected(m: nat, selfPid: nat, peers: seq<nat>, fired: bool): seq<Link> {
    seq(m, i => if i == selfPid then Barrier(fired) else if i in peers then Linked(i) else Vacant)
  }

  /**
    The barrier: starting from the registry `start` prepares, handshakes of
    distinct other parties never fail, and the "connected" future completes
    exactly when the last of the m-1 peers has registered. With a single party
    there is no handshake, so the future never completes.
   */
  lemma {:induction false} BarrierFires(m: nat, selfPid: nat, peers: seq<nat>)
    requires selfPid < m
    requires forall i :: 0 <= i < |peers| ==> peers[i] < m && peers[i] != selfPid
    requires forall i, j :: 0 <= i < j < |peers| ==> peers[i] != peers[j]
    ensures HandshakeAll(StartRegistry(m, selfPid), selfPid, peers).Ok?
    ensures var reg := HandshakeAll(StartRegistry(m, selfPid), selfPid, peers).value;
            reg == Expected(m, selfPid, peers, |peers| > 0 && |peers| == m - 1)
            && VacantCount(reg) == m - 1 - |peers|
            && (reg[selfPid] == Barrier(true) <==> |peers| > 0 && |peers| == m - 1)
  {
    var start := StartRegistry(m, selfPid);
    if |peers| == 0 {
      StartVacancies(m, selfPid);
      assert start == Expected(m, selfPid, peers, false);
    } else {
      var prefix := peers[..|peers| - 1];
      var p := peers[|peers| - 1];
      assert peers == prefix + [p];
      BarrierFires(m, selfPid, prefix);
      var before := HandshakeAll(start, selfPid, prefix).value;
      LastIsNew(peers);
      BarrierStep(m, selfPid, prefix, p, before);
      assert HandshakeAll(start, selfPid, peers) == Handshake(before, selfPid, p, p);
    }
  }

  lemma LastIsNew(peers: seq<nat>)
    requires |peers| > 0 && forall i, j :: 0 <= i < j < |peers| ==> peers[i] != peers[j]
    ensures peers[|peers| - 1] !in peers[..|peers| - 1]
  {
    var prefix := peers[..|peers| - 1];
    forall k | 0 <= k < |prefix| ensures prefix[k] != peers[|peers| - 1] {
      assert prefix[k] == peers[k];
    }
  }

  /** One handshake of a fresh peer during start-up. */
  lemma BarrierStep(m: nat, selfPid: nat, prefix: seq<nat>, p: nat, before: seq<Link>)
    requires selfPid < m && p < m && p != selfPid && p !in prefix
    requires before == Expected(m, selfPid, prefix, |prefix| > 0 && |prefix| == m - 1)
    requires VacantCount(before) == m - 1 - |prefix|
    ensures |prefix| + 1 <= m - 1
    ensures Handshake(before, selfPid, p, p) == Ok(Expected(m, selfPid, prefix + [p], |prefix| + 1 == m - 1))
    ensures VacantCount(Expected(m, selfPid, prefix + [p], |prefix| + 1 == m - 1)) == m - 1 - (|prefix| + 1)
  {
    assert before[p] == Vacant;
    FillOne(before, p, Linked(p));
    assert before == Expected(m, selfPid, prefix, false);
    ExpectedStep(m, selfPid, prefix, p);
    var linked := before[p := Linked(p)];
    NoVacancy(linked);
    if |prefix| + 1 == m - 1 {
      ReplaceFilled(linked, selfPid, Barrier(true));
      assert linked[selfPid := Barrier(true)] == Expected(m, selfPid, prefix + [p], true);
    }
  }

  /** One more distinct peer fills exactly its own slot. */
  lemma ExpectedStep(m: nat, selfPid: nat, prefix: seq<nat>, p: nat)
    requires p < m && p != selfPid && p !in prefix
    ensures Expected(m, selfPid, prefix, false)[p] == Vacant
    ensures Expected(m, selfPid, prefix, false)[p := Linked(p)] == Expected(m, selfPid, prefix + [p], false)
  {
    var a := Expected(m, selfPid, prefix, false)[p := Linked(p)];
    var b := Expected(m, selfPid, prefix + [p], false);
    forall i | 0 <= i < m ensures a[i] == b[i] {
      assert (i in prefix + [p]) <==> (i in prefix || i == p);
    }
  }
}

=== FILE: framing.dfy ===
/**
  The wire format of one exchanged value: a 2-byte big-endian sequence tag, a
  4-byte big-endian payload length, then the payload (struct format `!HI{n}s`),
  and the receive loop that cuts complete frames off an accumulation buffer.
 */
module Framing {
  import opened Base

  const HeaderSize: nat := 6
  /** Tags are packed as an unsigned 16-bit field. */
  const TagLimit: nat := 0x1_0000
  /** Lengths are packed as an unsigned 32-bit field. */
  const LengthLimit: nat := 0x1_0000_0000

  function Pow256(width: nat): (r: nat)
    ensures r >= 1
  {
    if width == 0 then 1 else 256 * Pow256(width - 1)
  }

  /** `n` in `width` bytes, most significant first. */
  function ToBigEndian(n: nat, width: nat): (r: Bytes)
    ensures |r| == width
  {
    if width == 0 then [] else ToBigEndian(n / 256, width - 1) + [(n % 256) as byte]
  }

  /** The unsigned number a big-endian byte string denotes. */
  function FromBigEndian(s: Bytes): (r: nat)
    ensures r < Pow256(|s|)
  {
    if |s| == 0 then 0
    else
      var high := FromBigEndian(s[..|s| - 1]);
      assert high * 256 <= (Pow256(|s| - 1) - 1) * 256;
      high * 256 + s[|s| - 1]
  }

  lemma {:induction false} FromToBigEndian(n: nat, width: nat)
    requires n < Pow256(width)
    ensures FromBigEndian(ToBigEndian(n, width)) == n
  {
    if width > 0 {
      var s := ToBigEndian(n, width);
      assert s[..|s| - 1] == ToBigEndian(n / 256, width - 1);
      FromToBigEndian(n / 256, width - 1);
    }
  }

  lemma {:induction false} ToFromBigEndian(s: Bytes)
    ensures ToBigEndian(FromBigEndian(s), |s|) == s
  {
    if |s| > 0 {
      var high := FromBigEndian(s[..|s| - 1]);
      var n := FromBigEndian(s);
      assert n / 256 == high && n % 256 == s[|s| - 1];
      ToFromBigEndian(s[..|s| - 1]);
      assert s == s[..|s| - 1] + [s[|s| - 1]];
    }
  }

  lemma WidthLimits()
    ensures Pow256(2) == TagLimit && Pow256(4) == LengthLimit
  {
    assert Pow256(1) == 256;
    assert Pow256(3) == 256 * 256 * 256;
  }

  /** One value on the wire: the node's sequence tag and its serialised result. */
  datatype Message = Message(tag: nat, payload: Bytes)

  /** What `struct.pack('!HI{n}s', ...)` accepts. */
  predicate Encodable(msg: Message) {
    msg.tag < TagLimit && |msg.payload| < LengthLimit
  }

  function Encode(msg: Message): (r: Bytes)
    requires Encodable(msg)
    ensures |r| == HeaderSize + |msg.payload|
  {
    ToBigEndian(msg.tag, 2) + ToBigEndian(|msg.payload|, 4) + msg.payload
  }

  /** The encoding carries the tag in its first two bytes, the payload length in the next four, then the payload unchanged. */
  lemma EncodeFields(msg: Message)
    requires Encodable(msg)
    ensures var r := Encode(msg);
            && FromBigEndian(r[..2]) == msg.tag
            && FromBigEndian(r[2..HeaderSize]) == |msg.payload|
            && r[HeaderSize..] == msg.payload
  {
    WidthLimits();
    var r := Encode(msg);
    FromToBigEndian(msg.tag, 2);
    FromToBigEndian(|msg.payload|, 4);
    assert r[..2] == ToBigEndian(msg.tag, 2);
    assert r[2..HeaderSize] == ToBigEndian(|msg.payload|, 4);
  }

  /** Errors `struct.pack` raises for a field outside its width. */
  datatype PackError = TagOutOfRange(tag: nat) | PayloadTooLong(length: nat)

  /** `send_data`: the bytes written to the transport for `payload` under `tag`. */
  function Pack(tag: nat, payload: Bytes): (r: Result<Bytes, PackError>)
    ensures r.Ok? <==> Encodable(Message(tag, payload))
    ensures r.Ok? ==> Decode(r.value) == Complete(Message(tag, payload), |r.value|)
    ensures r.Ok? ==> |r.value| == HeaderSize + |payload| && r.value[HeaderSize..] == payload
    ensures r.Err? ==> r.error == (if tag >= TagLimit then TagOutOfRange(tag) else PayloadTooLong(|payload|))
  {
    if tag >= TagLimit then Err(TagOutOfRange(tag))
    else if |payload| >= LengthLimit then Err(PayloadTooLong(|payload|))
    else
      var msg := Message(tag, payload);
      DecodeEncode(msg, []);
      assert Encode(msg) + [] == Encode(msg);
      Ok(Encode(msg))
  }

  datatype Decoded = Incomplete | Complete(msg: Message, consumed: nat)

  /**
    One frame from the front of `buf`, or `Incomplete` (nothing consumed) when
    the header or the payload it announces has not fully arrived.
   */
  function Decode(buf: Bytes): (r: Decoded)
    ensures r.Incomplete? <==> |buf| < HeaderSize || |buf| < HeaderSize + FromBigEndian(buf[2..HeaderSize])
    ensures r.Complete? ==> Encodable(r.msg)
    ensures r.Complete? ==> r.consumed == HeaderSize + |r.msg.payload| <= |buf|
    ensures r.Complete? ==> buf[..r.consumed] == Encode(r.msg)
  {
    if |buf| < HeaderSize then Incomplete
    else
      var length := FromBigEndian(buf[2..HeaderSize]);
      if |buf| < HeaderSize + length then Incomplete
      else
        WidthLimits();
        var msg := Message(FromBigEndian(buf[..2]), buf[HeaderSize..HeaderSize + length]);
        ToFromBigEndian(buf[..2]);
        ToFromBigEndian(buf[2..HeaderSize]);
        assert buf[..HeaderSize + length] == buf[..2] + buf[2..HeaderSize] + buf[HeaderSize..HeaderSize + length];
        Complete(msg, HeaderSize + length)
  }

  /** Decoding a buffer that starts with an encoded frame yields that frame and consumes exactly its bytes. */
  lemma DecodeEncode(msg: Message, rest: Bytes)
    requires Encodable(msg)
    ensures Decode(Encode(msg) + rest) == Complete(msg, HeaderSize + |msg.payload|)
  {
    var e := Encode(msg);
    EncodeFields(msg);
    var buf := e + rest;
    assert buf[..2] == e[..2];
    assert buf[2..HeaderSize] == e[2..HeaderSize];
    assert buf[HeaderSize..HeaderSize + |msg.payload|] == e[HeaderSize..];
  }

  /** No proper prefix of an encoded frame is decoded as a frame. */
  lemma PrefixIncomplete(msg: Message, k: nat)
    requires Encodable(msg)
    requires k < HeaderSize + |msg.payload|
    ensures Decode(Encode(msg)[..k]) == Incomplete
  {
    var e := Encode(msg);
    EncodeFields(msg);
    if k >= HeaderSize {
      assert e[..k][2..HeaderSize] == e[2..HeaderSize];
    }
  }

  function EncodeAll(msgs: seq<Message>): (r: Bytes)
    requires forall i :: 0 <= i < |msgs| ==> Encodable(msgs[i])
  {
    if |msgs| == 0 then [] else Encode(msgs[0]) + EncodeAll(msgs[1..])
  }

  lemma EncodeAllCons(msg: Message, more: seq<Message>)
    requires Encodable(msg)
    requires forall i :: 0 <= i < |more| ==> Encodable(more[i])
    ensures EncodeAll([msg] + more) == Encode(msg) + EncodeAll(more)
  {
    var msgs := [msg] + more;
    assert msgs[0] == msg && msgs[1..] == more;
  }

  lemma {:induction false} EncodeAllAppend(xs: seq<Message>, ys: seq<Message>)
    requires forall i :: 0 <= i < |xs| ==> Encodable(xs[i])
    requires forall i :: 0 <= i < |ys| ==> Encodable(ys[i])
    ensures EncodeAll(xs + ys) == EncodeAll(xs) + EncodeAll(ys)
  {
    if |xs| > 0 {
      assert xs + ys == [xs[0]] + (xs[1..] + ys);
      EncodeAllCons(xs[0], xs[1..] + ys);
      EncodeAllAppend(xs[1..], ys);
      EncodeAllCons(xs[0], xs[1..]);
      assert xs == [xs[0]] + xs[1..];
    } else {
      assert xs + ys == ys;
    }
  }

  /** A buffer that the receive loop leaves behind: nothing, or the start of a frame. */
  predicate Leftover(buf: Bytes) {
    buf == [] || Decode(buf).Incomplete?
  }

  /**
    The receive loop: cut complete frames off the front of `buf` until it is
    empty or holds only part of a frame. Returns the frames in arrival order and
    the bytes left for the next read.
   */
  function Drain(buf: Bytes): (r: (seq<Message>, Bytes))
    ensures forall i :: 0 <= i < |r.0| ==> Encodable(r.0[i])
    ensures EncodeAll(r.0) + r.1 == buf
    ensures Leftover(r.1)
    decreases |buf|
  {
    if |buf| == 0 then ([], [])
    else
      var d := Decode(buf);
      if d.Incomplete? then ([], buf)
      else
        var rest := Drain(buf[d.consumed..]);
        DrainStep(buf, d.msg, d.consumed, rest.0, rest.1);
        ([d.msg] + rest.0, rest.1)
  }

  lemma DrainStep(buf: Bytes, msg: Message, n: nat, more: seq<Message>, tail: Bytes)
    requires Encodable(msg) && n <= |buf| && buf[..n] == Encode(msg)
    requires forall i :: 0 <= i < |more| ==> Encodable(more[i])
    requires EncodeAll(more) + tail == buf[n..]
    ensures EncodeAll([msg] + more) + tail == buf
  {
    EncodeAllCons(msg, more);
    Rejoin(buf, Encode(msg), n, EncodeAll(more), tail);
  }

  /** Splitting `buf` at `n` and reading both halves back gives `buf`. */
  lemma Rejoin(buf: Bytes, front: Bytes, n: nat, middle: Bytes, tail: Bytes)
    requires n <= |buf| && buf[..n] == front
    requires middle + tail == buf[n..]
    ensures front + middle + tail == buf
  {
    assert buf == buf[..n] + buf[n..];
  }

  /** Draining a stream of encoded frames followed by a leftover returns exactly those frames and that leftover. */
  lemma {:induction false} DrainEncoded(msgs: seq<Message>, rest: Bytes)
    requires forall i :: 0 <= i < |msgs| ==> Encodable(msgs[i])
    requires Leftover(rest)
    ensures Drain(EncodeAll(msgs) + rest) == (msgs, rest)
  {
    if |msgs| > 0 {
      var tail := EncodeAll(msgs[1..]) + rest;
      var buf := EncodeAll(msgs) + rest;
      assert buf == Encode(msgs[0]) + tail;
      DecodeEncode(msgs[0], tail);
      assert buf[HeaderSize + |msgs[0].payload|..] == tail;
      DrainEncoded(msgs[1..], rest);
      assert [msgs[0]] + msgs[1..] == msgs;
    } else {
      assert EncodeAll(msgs) + rest == rest;
    }
  }

  /**
    Reading a stream in two chunks extracts the same frames, in the same order,
    and leaves the same bytes as reading it in one piece: frames split across
    reads are reassembled.
   */
  lemma DrainChunked(a: Bytes, b: Bytes)
    ensures Drain(a + b) == (Drain(a).0 + Drain(Drain(a).1 + b).0, Drain(Drain(a).1 + b).1)
  {
    var first := Drain(a);
    var second := Drain(first.1 + b);
    Regroup(a, EncodeAll(first.0), first.1, b, EncodeAll(second.0), second.1);
    EncodeAllAppend(first.0, second.0);
    DrainEncoded(first.0 + second.0, second.1);
  }

  lemma Regroup(a: Bytes, x: Bytes, left: Bytes, b: Bytes, y: Bytes, rest: Bytes)
    requires a == x + left && left + b == y + rest
    ensures a + b == (x + y) + rest
  {
    calc {
      a + b;
      (x + left) + b;
      x + (left + b);
      x + (y + rest);
      (x + y) + rest;
    }
  }

  // ---------------------------------------------------------------------------
  // The loop as written in the source, kept to exhibit its two defects.

  /** `struct.unpack('!HI', ...)` raises when handed fewer than six bytes. */
  datatype HeaderError = ShortHeader(available: nat)

  /**
    The receive loop as the source writes it: every header is unpacked from the
    first six bytes of `chunk`, the bytes handed to this read (the handshake byte
    included), rather than from the accumulated buffer `buf`; and a chunk shorter
    than a header raises instead of waiting for more bytes.
   */
  function DrainAsWritten(buf: Bytes, chunk: Bytes): (r: Result<(seq<Message>, Bytes), HeaderError>)
    ensures |buf| > 0 && |chunk| < HeaderSize ==> r == Err(ShortHeader(|chunk|))
    ensures r.Ok? && |chunk| >= HeaderSize ==>
              forall i :: 0 <= i < |r.value.0| ==> r.value.0[i].tag == FromBigEndian(chunk[..2])
    decreases |buf|
  {
    if |buf| == 0 then Ok(([], []))
    else if |chunk| < HeaderSize then Err(ShortHeader(|chunk|))
    else
      var tag := FromBigEndian(chunk[..2]);
      var length := FromBigEndian(chunk[2..HeaderSize]);
      if |buf| < HeaderSize + length then Ok(([], buf))
      else
        var rest := DrainAsWritten(buf[HeaderSize + length..], chunk);
        if rest.Err? then rest
        else Ok(([Message(tag, buf[HeaderSize..HeaderSize + length])] + rest.value.0, rest.value.1))
  }

  /** The few header values the counterexamples below need. */
  lemma SmallHeaders()
    ensures FromBigEndian([0, 0]) == 0 && FromBigEndian([0, 1]) == 1 && FromBigEndian([1, 0]) == 256
    ensures FromBigEndian([0, 0, 0, 0]) == 0 && FromBigEndian([0, 0, 0, 1]) == 1
    ensures FromBigEndian([0, 0, 0, 2]) == 2
  {
    WidthLimits();
    assert ToBigEndian(0, 2) == [0, 0];
    assert ToBigEndian(1, 2) == [0, 1];
    assert ToBigEndian(256, 2) == [1, 0];
    assert ToBigEndian(0, 4) == [0, 0, 0, 0];
    assert ToBigEndian(1, 4) == [0, 0, 0, 1];
    assert ToBigEndian(2, 4) == [0, 0, 0, 2];
    FromToBigEndian(0, 2);
    FromToBigEndian(1, 2);
    FromToBigEndian(256, 2);
    FromToBigEndian(0, 4);
    FromToBigEndian(1, 4);
    FromToBigEndian(2, 4);
  }

  /** Empty frame under tag 0, and the two frames of the second counterexample. */
  lemma SmallFrames()
    ensures Encode(Message(0, [])) == [0, 0, 0, 0, 0, 0]
    ensures Encode(Message(0, [7])) == [0, 0, 0, 0, 0, 1, 7]
    ensures Encode(Message(1, [8, 9])) == [0, 1, 0, 0, 0, 2, 8, 9]
  {
    WidthLimits();
    assert ToBigEndian(0, 2) == [0, 0];
    assert ToBigEndian(1, 2) == [0, 1];
    assert ToBigEndian(0, 4) == [0, 0, 0, 0];
    assert ToBigEndian(1, 4) == [0, 0, 0, 1];
    assert ToBigEndian(2, 4) == [0, 0, 0, 2];
  }

  /**
    On an inbound connection the first chunk still starts with the peer's
    identity byte, so the header is read one byte off: identity 1 followed by an
    empty frame under tag 0 is taken as tag 256. The corrected loop reads tag 0.
   */
  lemma PreambleShiftsHeader()
    ensures DrainAsWritten([0, 0, 0, 0, 0, 0], [1, 0, 0, 0, 0, 0, 0]) == Ok(([Message(256, [])], []))
    ensures Drain([0, 0, 0, 0, 0, 0]) == ([Message(0, [])], [])
  {
    SmallHeaders();
    var chunk: Bytes := [1, 0, 0, 0, 0, 0, 0];
    var buf: Bytes := [0, 0, 0, 0, 0, 0];
    assert chunk[..2] == [1, 0] && chunk[2..HeaderSize] == [0, 0, 0, 0];
    assert buf[HeaderSize..] == [] && buf[HeaderSize..HeaderSize] == [];
    assert DrainAsWritten([], chunk) == Ok(([], []));
    assert FromBigEndian(chunk[..2]) == 256 && FromBigEndian(chunk[2..HeaderSize]) == 0;
    var inner := DrainAsWritten(buf[HeaderSize..], chunk);
    assert inner == Ok(([], []));
    assert DrainAsWritten(buf, chunk) == Ok(([Message(256, buf[HeaderSize..HeaderSize])] + inner.value.0, inner.value.1));
    assert [Message(256, buf[HeaderSize..HeaderSize])] + inner.value.0 == [Message(256, [])];
    assert DrainAsWritten(buf, chunk) == Ok(([Message(256, [])], []));
    SmallFrames();
    DrainEncoded([Message(0, [])], []);
    assert EncodeAll([Message(0, [])]) == buf by {
      EncodeAllCons(Message(0, []), []);
    }
  }

  /**
    Two frames delivered in one chunk: the second header is re-read from the
    start of the chunk, so the second frame is cut with the first frame's tag and
    length. The corrected loop returns both frames as sent.
   */
  lemma SecondHeaderRereadsFirst()
    ensures var stream := Encode(Message(0, [7])) + Encode(Message(1, [8, 9]));
            DrainAsWritten(stream, stream) == Ok(([Message(0, [7]), Message(0, [8])], [9]))
            && Drain(stream) == ([Message(0, [7]), Message(1, [8, 9])], [])
  {
    var stream := TwoFrames();
    TwoFramesAsWritten(stream);
    var msgs := [Message(0, [7]), Message(1, [8, 9])];
    assert EncodeAll(msgs) + [] == stream by {
      EncodeAllCons(msgs[1], []);
      EncodeAllCons(msgs[0], [msgs[1]]);
      assert msgs == [msgs[0]] + [msgs[1]];
    }
    DrainEncoded(msgs, []);
  }

  lemma TwoFrames() returns (stream: Bytes)
    ensures stream == Encode(Message(0, [7])) + Encode(Message(1, [8, 9]))
    ensures stream == [0, 0, 0, 0, 0, 1, 7, 0, 1, 0, 0, 0, 2, 8, 9]
  {
    SmallHeaders();
    SmallFrames();
    stream := [0, 0, 0, 0, 0, 1, 7, 0, 1, 0, 0, 0, 2, 8, 9];
  }

  lemma TwoFramesAsWritten(stream: Bytes)
    requires stream == [0, 0, 0, 0, 0, 1, 7, 0, 1, 0, 0, 0, 2, 8, 9]
    ensures DrainAsWritten(stream, stream) == Ok(([Message(0, [7]), Message(0, [8])], [9]))
  {
    SmallHeaders();
    assert stream[..2] == [0, 0] && stream[2..HeaderSize] == [0, 0, 0, 1];
    var left: Bytes := [0, 1, 0, 0, 0, 2, 8, 9];
    assert FromBigEndian(stream[..2]) == 0 && FromBigEndian(stream[2..HeaderSize]) == 1;
    assert stream[7..] == left && stream[HeaderSize..7] == [7];
    assert left[7..] == [9] && left[HeaderSize..7] == [8];
    var inner := DrainAsWritten(left[7..], stream);
    assert inner == Ok(([], left[7..]));
    var middle := DrainAsWritten(left, stream);
    assert middle == Ok(([Message(0, left[HeaderSize..7])] + inner.value.0, inner.value.1));
    assert [Message(0, left[HeaderSize..7])] + inner.value.0 == [Message(0, [8])];
    assert middle == Ok(([Message(0, [8])], [9]));
    var top := DrainAsWritten(stream, stream);
    assert top == Ok(([Message(0, stream[HeaderSize..7])] + middle.value.0, middle.value.1));
    assert [Message(0, stream[HeaderSize..7])] + middle.value.0 == [Message(0, [7]), Message(0, [8])];
  }

  /**
    A header split across two reads: the first read holds three bytes and the
    source raises; the corrected loop keeps them and completes the frame on the
    next read.
   */
  lemma SplitHeaderRaises()
    ensures DrainAsWritten([0, 0, 0], [0, 0, 0]) == Err(ShortHeader(3))
    ensures Drain([0, 0, 0]) == ([], [0, 0, 0])
    ensures Drain([0, 0, 0] + [0, 0, 0]) == ([Message(0, [])], [])
  {
    PreambleShiftsHeader();
    var half: Bytes := [0, 0, 0];
    assert half + half == [0, 0, 0, 0, 0, 0];
  }
}

=== FILE: graph.dfy ===
/**
  The dataflow graph a runtime builds: Variables and Ops held in an arena in
  creation order, each with the sequence tag it took from the runtime's counter,
  its label and its resolution state.
 */
module Graph {
  import opened Base
  import Decimal

  type NodeId = nat

  datatype OpKind = Add | Mul | Pow

  /** An operand: a node of the graph (awaited), or a plain number used as it is. */
  datatype Operand = Ref(id: NodeId) | Const(value: int)

  datatype Kind = Variable | Op(op: OpKind, lhs: Operand, rhs: Operand)

  /** A node's future: pending, or resolved once with a value. */
  datatype State = Pending | Resolved(value: int)

  datatype Node = Node(tag: nat, name: string, kind: Kind, state: State)

  /** The graph half of a runtime: the tag counter `_pc`, the arena, and the registered variables. */
  datatype Builder = Builder(counter: nat, nodes: seq<Node>, variables: set<NodeId>)

  const Empty: Builder := Builder(0, [], {})

  /** Operand `o` names only nodes created before index `bound`. */
  predicate Refers(o: Operand, bound: nat) {
    o.Ref? ==> o.id < bound
  }

  predicate Scoped(k: Kind, bound: nat) {
    k.Op? ==> Refers(k.lhs, bound) && Refers(k.rhs, bound)
  }

  /**
    Every node took the tag equal to its index, the counter is the number of
    nodes, registered variables are Variable nodes, and an Op refers only to
    nodes created before it.
   */
  predicate Valid(g: Builder) {
    && g.counter == |g.nodes|
    && (forall i :: 0 <= i < |g.nodes| ==> g.nodes[i].tag == i && Scoped(g.nodes[i].kind, i))
    && (forall i :: i in g.variables ==> i < |g.nodes| && g.nodes[i].kind.Variable?)
  }

  // ---------------------------------------------------------------------------
  // Tags

  /** Reading the `pc` property: the current counter, and the counter moved on by one. */
  function ReadTag(g: Builder): (nat, Builder) {
    (g.counter, g.(counter := g.counter + 1))
  }

  /** The values `k` successive reads of `pc` return. */
  function ReadTags(g: Builder, k: nat): seq<nat>
    decreases k
  {
    if k == 0 then [] else [ReadTag(g).0] + ReadTags(ReadTag(g).1, k - 1)
  }

  /** Successive reads of `pc` return the counter, the counter plus one, and so on. */
  lemma {:induction false} TagsCountUp(g: Builder, k: nat)
    ensures |ReadTags(g, k)| == k
    ensures forall i :: 0 <= i < k ==> ReadTags(g, k)[i] == g.counter + i
    decreases k
  {
    if k > 0 {
      TagsCountUp(ReadTag(g).1, k - 1);
    }
  }

  /** `FutureWrapper.__init__`: a new pending node that takes the next tag. */
  function Construct(g: Builder, name: string, kind: Kind): (r: (NodeId, Builder))
    requires Valid(g) && Scoped(kind, |g.nodes|)
    ensures Valid(r.1)
    ensures r.0 == |g.nodes| && |r.1.nodes| == |g.nodes| + 1 && r.1.nodes[..|g.nodes|] == g.nodes
    ensures r.1.nodes[r.0] == Node(g.counter, name, kind, Pending)
    ensures r.1.variables == g.variables
  {
    var (tag, next) := ReadTag(g);
    var nodes := g.nodes + [Node(tag, name, kind, Pending)];
    assert nodes[..|g.nodes|] == g.nodes;
    (|g.nodes|, next.(nodes := nodes))
  }

  // ---------------------------------------------------------------------------
  // Variables and operations

  /** The label a Variable gets when `variable()` is called without a name. */
  function DefaultName(i: nat): string {
    "var_" + Decimal.Format(i)
  }

  /**
    `variable(name)`: a new Variable, registered; unnamed ones are called
    `var_i` with `i` the number of variables registered before it.
   */
  function NewVariable(g: Builder, name: Option<string>): (r: (NodeId, Builder))
    requires Valid(g)
    ensures Valid(r.1)
    ensures r.0 == |g.nodes| && |r.1.nodes| == |g.nodes| + 1 && r.1.nodes[..|g.nodes|] == g.nodes
    ensures r.1.nodes[r.0].tag == g.counter && r.1.nodes[r.0].kind == Variable && r.1.nodes[r.0].state == Pending
    ensures r.1.nodes[r.0].name == (if name.Some? then name.value else DefaultName(|g.variables|))
    ensures r.1.variables == g.variables + {r.0} && |r.1.variables| == |g.variables| + 1
  {
    var title := if name.Some? then name.value else DefaultName(|g.variables|);
    var (id, next) := Construct(g, title, Variable);
    assert id !in g.variables;
    (id, next.(variables := g.variables + {id}))
  }

  function OpName(op: OpKind): string {
    match op
    case Add => "add"
    case Mul => "mul"
    case Pow => "pow"
  }

  /** `repr` of an operand: a node's label, or a number's decimal text. */
  function Repr(nodes: seq<Node>, o: Operand): string
    requires Refers(o, |nodes|)
  {
    match o
    case Ref(id) => nodes[id].name
    case Const(v) => Decimal.Format(v)
  }

  /** The label `to_future` gives an Op: the operation's name and its operands' `repr`s, comma-separated, in parentheses. */
  function Label(nodes: seq<Node>, op: OpKind, lhs: Operand, rhs: Operand): (r: string)
    requires Refers(lhs, |nodes|) && Refers(rhs, |nodes|)
    ensures |r| == |OpName(op)| + |Repr(nodes, lhs)| + |Repr(nodes, rhs)| + 3
    ensures r[..|OpName(op)| + 1] == OpName(op) + "("
    ensures r[|OpName(op)| + 1..|OpName(op)| + 1 + |Repr(nodes, lhs)|] == Repr(nodes, lhs)
    ensures r[|OpName(op)| + 1 + |Repr(nodes, lhs)|] == ','
    ensures r[|r| - 1 - |Repr(nodes, rhs)|..|r| - 1] == Repr(nodes, rhs)
    ensures r[|r| - 1] == ')'
  {
    var head := OpName(op) + "(";
    var a := Repr(nodes, lhs);
    var b := Repr(nodes, rhs);
    var r := head + a + "," + b + ")";
    assert r[..|head|] == head;
    assert r[|head|..|head| + |a|] == a;
    assert r[|head| + |a|] == ',';
    assert r[|r| - 1 - |b|..|r| - 1] == b;
    assert r[|r| - 1] == ')';
    r
  }

  /** `add` / `mul` / `pow`: a new pending Op over the operands, labelled by `Label`, with the next tag. */
  function NewOp(g: Builder, op: OpKind, lhs: Operand, rhs: Operand): (r: (NodeId, Builder))
    requires Valid(g) && Refers(lhs, |g.nodes|) && Refers(rhs, |g.nodes|)
    ensures Valid(r.1)
    ensures r.0 == |g.nodes| && |r.1.nodes| == |g.nodes| + 1 && r.1.nodes[..|g.nodes|] == g.nodes
    ensures r.1.nodes[r.0] == Node(g.counter, Label(g.nodes, op, lhs, rhs), Op(op, lhs, rhs), Pending)
    ensures r.1.variables == g.variables
  {
    Construct(g, Label(g.nodes, op, lhs, rhs), Op(op, lhs, rhs))
  }

  // ---------------------------------------------------------------------------
  // Construction sequences

  datatype Command = MakeVariable(name: Option<string>) | MakeOp(op: OpKind, lhs: Operand, rhs: Operand)

  /** Every operation in `cmds` refers to nodes that exist when it runs, `start` nodes existing before the first. */
  predicate ScopedCommands(cmds: seq<Command>, start: nat) {
    forall k :: 0 <= k < |cmds| ==> cmds[k].MakeOp? ==> Refers(cmds[k].lhs, start + k) && Refers(cmds[k].rhs, start + k)
  }

  function Run(g: Builder, c: Command): (r: Builder)
    requires Valid(g)
    requires c.MakeOp? ==> Refers(c.lhs, |g.nodes|) && Refers(c.rhs, |g.nodes|)
    ensures Valid(r) && |r.nodes| == |g.nodes| + 1 && r.nodes[..|g.nodes|] == g.nodes
  {
    match c
    case MakeVariable(name) => NewVariable(g, name).1
    case MakeOp(op, lhs, rhs) => NewOp(g, op, lhs, rhs).1
  }

  /** The builder after running `cmds` in order. */
  function Build(g: Builder, cmds: seq<Command>): (r: Builder)
    requires Valid(g) && ScopedCommands(cmds, |g.nodes|)
    ensures Valid(r) && |r.nodes| == |g.nodes| + |cmds|
    decreases |cmds|
  {
    if |cmds| == 0 then g
    else
      var before := Build(g, cmds[..|cmds| - 1]);
      Run(before, cmds[|cmds| - 1])
  }

  function CountVariables(cmds: seq<Command>): nat {
    if |cmds| == 0 then 0
    else CountVariables(cmds[..|cmds| - 1]) + (if cmds[|cmds| - 1].MakeVariable? then 1 else 0)
  }

  /** One construction call: what it adds to the registered variables, and the label of an unnamed variable. */
  lemma RunStep(g: Builder, c: Command)
    requires Valid(g)
    requires c.MakeOp? ==> Refers(c.lhs, |g.nodes|) && Refers(c.rhs, |g.nodes|)
    ensures Run(g, c).variables == g.variables + (if c.MakeVariable? then {|g.nodes|} else {})
    ensures |Run(g, c).variables| == |g.variables| + (if c.MakeVariable? then 1 else 0)
    ensures c == MakeVariable(None) ==> Run(g, c).nodes[|g.nodes|].name == DefaultName(|g.variables|)
  {
  }

  lemma ScopedPrefix(cmds: seq<Command>, n: nat)
    requires ScopedCommands(cmds, 0) && n <= |cmds|
    ensures ScopedCommands(cmds[..n], 0)
  {
    forall k | 0 <= k < n
      ensures cmds[..n][k].MakeOp? ==> Refers(cmds[..n][k].lhs, k) && Refers(cmds[..n][k].rhs, k)
    {
      assert cmds[..n][k] == cmds[k];
    }
  }

  /**
    Building from a fresh runtime, the registered variables are exactly the
    nodes made by `variable()`, Ops not counted.
   */
  lemma {:induction false} BuildRegisters(cmds: seq<Command>)
    requires ScopedCommands(cmds, 0)
    ensures |Build(Empty, cmds).variables| == CountVariables(cmds)
    ensures forall k :: k in Build(Empty, cmds).variables <==> 0 <= k < |cmds| && cmds[k].MakeVariable?
  {
    if |cmds| > 0 {
      var n := |cmds| - 1;
      var prefix := cmds[..n];
      ScopedPrefix(cmds, n);
      BuildRegisters(prefix);
      var before := Build(Empty, prefix);
      var after := Build(Empty, cmds);
      assert after == Run(before, cmds[n]);
      RunStep(before, cmds[n]);
      CountStep(cmds);
      RegisterStep(cmds, before.variables, after.variables);
    }
  }

  lemma CountStep(cmds: seq<Command>)
    requires |cmds| > 0
    ensures CountVariables(cmds) == CountVariables(cmds[..|cmds| - 1]) + (if cmds[|cmds| - 1].MakeVariable? then 1 else 0)
  {
  }

  lemma RegisterStep(cmds: seq<Command>, before: set<NodeId>, after: set<NodeId>)
    requires |cmds| > 0
    requires after == before + (if cmds[|cmds| - 1].MakeVariable? then {|cmds| - 1} else {})
    requires forall j :: j in before <==> 0 <= j < |cmds| - 1 && cmds[..|cmds| - 1][j].MakeVariable?
    ensures forall k :: k in after <==> 0 <= k < |cmds| && cmds[k].MakeVariable?
  {
    forall k ensures k in after <==> 0 <= k < |cmds| && cmds[k].MakeVariable? {
      if 0 <= k < |cmds| - 1 {
        assert cmds[..|cmds| - 1][k] == cmds[k];
      }
    }
  }

  /** Building from a fresh runtime, an unnamed variable is called `var_i`, with `i` the number of variables created before it. */
  lemma {:induction false} BuildNames(cmds: seq<Command>)
    requires ScopedCommands(cmds, 0)
    ensures forall k :: 0 <= k < |cmds| && cmds[k] == MakeVariable(None) ==>
              Build(Empty, cmds).nodes[k].name == DefaultName(CountVariables(cmds[..k]))
  {
    if |cmds| > 0 {
      var n := |cmds| - 1;
      var prefix := cmds[..n];
      ScopedPrefix(cmds, n);
      BuildNames(prefix);
      BuildRegisters(prefix);
      var before := Build(Empty, prefix);
      var after := Build(Empty, cmds);
      assert after == Run(before, cmds[n]);
      RunStep(before, cmds[n]);
      NameStep(cmds, before.nodes, after.nodes);
    }
  }

  lemma NameStep(cmds: seq<Command>, before: seq<Node>, after: seq<Node>)
    requires |cmds| > 0 && |before| == |cmds| - 1 && |after| == |cmds| && after[..|before|] == before
    requires forall k :: 0 <= k < |before| && cmds[..|before|][k] == MakeVariable(None) ==>
               before[k].name == DefaultName(CountVariables(cmds[..|before|][..k]))
    requires cmds[|before|] == MakeVariable(None) ==> after[|before|].name == DefaultName(CountVariables(cmds[..|before|]))
    ensures forall k :: 0 <= k < |cmds| && cmds[k] == MakeVariable(None) ==>
              after[k].name == DefaultName(CountVariables(cmds[..k]))
  {
    var n := |before|;
    forall k | 0 <= k < n
      ensures cmds[..n][k] == cmds[k] && cmds[..n][..k] == cmds[..k] && after[k] == before[k]
    {
      assert after[..n][k] == after[k];
    }
  }

  // ---------------------------------------------------------------------------
  // What an Op computes

  /** `a ** b` for a non-negative exponent: `b` factors of `a`. */
  function Power(a: int, b: nat): int {
    if b == 0 then 1 else a * Power(a, b - 1)
  }

  /**
    `a + b`, `a * b` and `a ** b` on Python integers. A negative exponent
    gives a float in Python, which is outside this integer model: `None`.
   */
  function Apply(op: OpKind, a: int, b: int): (r: Option<int>)
    ensures r.None? <==> op == Pow && b < 0
    ensures op == Add ==> r == Some(a + b)
    ensures op == Mul ==> r == Some(a * b)
    ensures op == Pow && b >= 0 ==> r == Some(Power(a, b))
  {
    match op
    case Add => Some(a + b)
    case Mul => Some(a * b)
    case Pow => if b < 0 then None else Some(Power(a, b))
  }

  /** `handle_awaitable`: a node yields its value once resolved (else the Op waits); a number is used as it is. */
  function OperandValue(nodes: seq<Node>, o: Operand): Option<int> {
    match o
    case Const(v) => Some(v)
    case Ref(id) => if id < |nodes| && nodes[id].state.Resolved? then Some(nodes[id].state.value) else None
  }

  /**
    The Op task completing: when node `id` is a pending Op whose operands have
    resolved, it resolves to the operation applied to their values. Anything
    else (a Variable, an Op already resolved, an operand still pending, a result
    outside the integers) leaves the arena as it is.
   */
  function Settle(nodes: seq<Node>, id: NodeId): (r: seq<Node>)
    requires id < |nodes|
    ensures |r| == |nodes|
    ensures forall i :: 0 <= i < |nodes| && i != id ==> r[i] == nodes[i]
    ensures r[id] == nodes[id].(state := r[id].state)
    ensures r[id].state != nodes[id].state ==> nodes[id].state.Pending? && nodes[id].kind.Op?
    ensures nodes[id].kind.Op? && nodes[id].state.Pending? ==>
              var k := nodes[id].kind;
              var a := OperandValue(nodes, k.lhs);
              var b := OperandValue(nodes, k.rhs);
              r[id].state == (if a.Some? && b.Some? && Apply(k.op, a.value, b.value).Some?
                              then Resolved(Apply(k.op, a.value, b.value).value) else Pending)
  {
    var n := nodes[id];
    if !n.kind.Op? || !n.state.Pending? then nodes
    else
      var a := OperandValue(nodes, n.kind.lhs);
      var b := OperandValue(nodes, n.kind.rhs);
      if a.None? || b.None? then nodes
      else
        var v := Apply(n.kind.op, a.value, b.value);
        if v.None? then nodes else nodes[id := n.(state := Resolved(v.value))]
  }

  /**
    The value a node denotes, by structural recursion over the graph: a
    Variable's resolved value, or an Op applied to its operands' values.
    `None` where an input is missing or the result leaves the integers.
   */
  function Eval(nodes: seq<Node>, id: NodeId): Option<int>
    requires id < |nodes|
    decreases id, 1
  {
    match nodes[id].kind
    case Variable => if nodes[id].state.Resolved? then Some(nodes[id].state.value) else None
    case Op(op, lhs, rhs) =>
      var a := EvalOperand(nodes, lhs, id);
      var b := EvalOperand(nodes, rhs, id);
      if a.Some? && b.Some? then Apply(op, a.value, b.value) else None
  }

  function EvalOperand(nodes: seq<Node>, o: Operand, bound: nat): Option<int>
    requires bound < |nodes|
    decreases bound, 0
  {
    match o
    case Const(v) => Some(v)
    case Ref(j) => if j < bound then Eval(nodes, j) else None
  }

  function AsState(v: Option<int>): State {
    if v.Some? then Resolved(v.value) else Pending
  }

  /** Let the Op tasks of nodes `0..k-1` complete, in creation order. */
  function SettleUpTo(nodes: seq<Node>, k: nat): (r: seq<Node>)
    requires k <= |nodes|
    ensures |r| == |nodes|
  {
    if k == 0 then nodes else Settle(SettleUpTo(nodes, k - 1), k - 1)
  }

  /** Every Op is still pending; nodes refer only to earlier nodes. */
  predicate Unsettled(nodes: seq<Node>) {
    forall i :: 0 <= i < |nodes| ==> Scoped(nodes[i].kind, i) && (nodes[i].kind.Op? ==> nodes[i].state.Pending?)
  }

  /**
    Once the inputs are in, letting every Op task complete in creation order
    resolves each node to exactly the value `Eval` assigns it, and leaves
    pending exactly the nodes `Eval` has no value for.
   */
  lemma {:induction false} SettleComputes(nodes: seq<Node>, k: nat)
    requires Unsettled(nodes) && k <= |nodes|
    ensures forall i :: 0 <= i < k ==> SettleUpTo(nodes, k)[i].state == AsState(Eval(nodes, i))
    ensures forall i :: 0 <= i < |nodes| ==> SettleUpTo(nodes, k)[i] == nodes[i].(state := SettleUpTo(nodes, k)[i].state)
    ensures forall i :: k <= i < |nodes| ==> SettleUpTo(nodes, k)[i] == nodes[i]
  {
    if k > 0 {
      SettleComputes(nodes, k - 1);
      var before := SettleUpTo(nodes, k - 1);
      var id := k - 1;
      assert before[id] == nodes[id];
      if nodes[id].kind.Op? {
        var kind := nodes[id].kind;
        OperandAgrees(nodes, before, kind.lhs, id);
        OperandAgrees(nodes, before, kind.rhs, id);
      }
    }
  }

  /** An operand of node `bound` reads the same value from the settled prefix as `Eval` gives it. */
  lemma OperandAgrees(nodes: seq<Node>, settled: seq<Node>, o: Operand, bound: nat)
    requires bound < |nodes| == |settled| && Refers(o, bound)
    requires forall i :: 0 <= i < bound ==> settled[i].state == AsState(Eval(nodes, i))
    ensures OperandValue(settled, o) == EvalOperand(nodes, o, bound)
  {
  }

  lemma SettleAll(nodes: seq<Node>)
    requires Unsettled(nodes)
    ensures forall i :: 0 <= i < |nodes| ==> SettleUpTo(nodes, |nodes|)[i].state == AsState(Eval(nodes, i))
  {
    SettleComputes(nodes, |nodes|);
  }
}

=== FILE: runtime.dfy ===
/**
  One party's runtime once start-up has connected it to every other party:
  sending a fed variable's value to a peer, asking a peer for a variable,
  reading frames off a peer connection, feeding inputs, and shutting down.
 */
module Runtime {
  import opened Base
  import opened Framing
  import opened Exchanger
  import opened Graph

  /** `pickle`: how a value becomes bytes on the wire, and what those bytes read back as (`None` for Python's `None`). */
  datatype Codec = Codec(dumps: int -> Bytes, loads: Bytes -> Option<int>)

  /**
    A party `pid` out of `m`: its graph, and its connection to every other
    party, indexed by the peer's pid (the entry at `pid` itself is unused).
   */
  datatype Session = Session(pid: nat, m: nat, graph: Builder, conns: seq<Conn>)

  /** What a party does to the outside world: write bytes to a peer, or close the connection to it. */
  datatype Event = Wrote(peer: nat, data: Bytes) | Closed(peer: nat)

  datatype RuntimeError =
    /** `send` of a variable that has not been fed (`AssertionError`). */
    | NotFed(node: NodeId)
    /** The frame cannot be packed (`struct.error`). */
    | Unpackable(packing: PackError)
    /** A `feed` key that is not a registered variable. */
    | NotAVariable(node: NodeId)
    /** `set_result` on a node that already has one (`InvalidStateError`). */
    | AlreadyResolved(node: NodeId)
    /** `receive` found a placeholder, not bytes, under the tag (`TypeError` from `pickle.loads`). */
    | Unreadable(tag: nat)
    /** The peer connection raised while handling received bytes. */
    | ConnectionFailed(cause: ExchangeError)

  /**
    Start-up is over: every other party has a connection that knows its peer,
    and every placeholder in a delivery buffer belongs to an existing node.
   */
  predicate Connected(s: Session) {
    && s.pid < s.m && |s.conns| == s.m && Graph.Valid(s.graph)
    && (forall q :: 0 <= q < s.m && q != s.pid ==> s.conns[q].peer == Some(q))
    && (forall q :: 0 <= q < s.m ==> PlaceholdersBelow(s.conns[q].buffer, |s.graph.nodes|))
  }

  /** A node keeps its tag, label and kind; only a pending one may change state. */
  predicate Settles(a: Node, b: Node) {
    b == a.(state := b.state) && (a.state.Resolved? ==> b.state == a.state)
  }

  /**
    `t` is a later state of the same party: the same graph up to states, every
    resolved node still resolved to the same value, and no delivery buffer has
    lost a tag.
   */
  predicate Extends(s: Session, t: Session) {
    && t.pid == s.pid && t.m == s.m && |t.conns| == |s.conns|
    && |t.graph.nodes| == |s.graph.nodes| && t.graph.variables == s.graph.variables && t.graph.counter == s.graph.counter
    && (forall i :: 0 <= i < |s.graph.nodes| ==> Settles(s.graph.nodes[i], t.graph.nodes[i]))
    && (forall q :: 0 <= q < |s.conns| ==> s.conns[q].buffer.Keys <= t.conns[q].buffer.Keys)
  }

  lemma ExtendsTrans(s: Session, t: Session, u: Session)
    requires Extends(s, t) && Extends(t, u)
    ensures Extends(s, u)
  {
    assert forall i :: 0 <= i < |s.graph.nodes| ==> Settles(s.graph.nodes[i], t.graph.nodes[i]) && Settles(t.graph.nodes[i], u.graph.nodes[i]);
  }

  /** `set_result` on node `id`. */
  function Resolve(g: Builder, id: NodeId, v: int): (r: Builder)
    requires Graph.Valid(g) && id < |g.nodes|
    ensures Graph.Valid(r) && |r.nodes| == |g.nodes| && r.variables == g.variables && r.counter == g.counter
    ensures forall i :: 0 <= i < |g.nodes| && i != id ==> r.nodes[i] == g.nodes[i]
  {
    g.(nodes := g.nodes[id := g.nodes[id].(state := Resolved(v))])
  }

  // ---------------------------------------------------------------------------
  // Party.send and Party.receive

  /**
    What `Party.send` writes for node `node`: the node must be resolved; its
    value is encoded and framed under the node's tag.
   */
  function Frame(g: Builder, codec: Codec, node: NodeId): (r: Result<Bytes, RuntimeError>)
    requires Graph.Valid(g) && node < |g.nodes|
    ensures g.nodes[node].state.Pending? ==> r == Err(NotFed(node))
    ensures g.nodes[node].state.Resolved? ==>
              var msg := Message(node, codec.dumps(g.nodes[node].state.value));
              && (r.Ok? <==> Encodable(msg))
              && (r.Ok? ==> r.value == Encode(msg) && Decode(r.value) == Complete(msg, |r.value|))
              && (r.Err? ==> r.error.Unpackable?)
  {
    var n := g.nodes[node];
    if n.state.Pending? then Err(NotFed(node))
    else
      match Pack(n.tag, codec.dumps(n.state.value))
      case Ok(frame) =>
        DecodeEncode(Message(n.tag, codec.dumps(n.state.value)), []);
        assert Encode(Message(n.tag, codec.dumps(n.state.value))) + [] == frame;
        Ok(frame)
      case Err(e) => Err(Unpackable(e))
  }

  /** `Party.send`: the frame of node `node`, written to peer `q`. */
  function Send(s: Session, codec: Codec, q: nat, node: NodeId): (r: Result<Event, RuntimeError>)
    requires Connected(s) && q < s.m && q != s.pid && node < |s.graph.nodes|
    ensures s.graph.nodes[node].state.Pending? ==> r == Err(NotFed(node))
    ensures s.graph.nodes[node].state.Resolved? ==>
              var msg := Message(node, codec.dumps(s.graph.nodes[node].state.value));
              && (r.Ok? <==> Encodable(msg))
              && (r.Ok? ==> r.value == Wrote(q, Encode(msg)))
              && (r.Ok? ==> Decode(r.value.data) == Complete(msg, |r.value.data|))
              && (r.Err? ==> r.error.Unpackable?)
  {
    match Frame(s.graph, codec, node)
    case Ok(frame) => Ok(Wrote(q, frame))
    case Err(e) => Err(e)
  }

  /**
    `Party.receive`: ask peer `q` for node `node`. When the peer's payload is
    already parked under the node's tag it is decoded at once and, unless it
    reads as `None`, resolves the node; otherwise a placeholder is left for the
    payload to complete later.
   */
  function Receive(s: Session, codec: Codec, q: nat, node: NodeId): (r: Result<Session, RuntimeError>)
    requires Connected(s) && q < s.m && q != s.pid && node < |s.graph.nodes|
    ensures r.Ok? ==> Connected(r.value) && Extends(s, r.value)
    ensures r.Ok? ==> r.value.conns[q].buffer.Keys == s.conns[q].buffer.Keys + {node}
    ensures r.Err? ==> node in s.conns[q].buffer
    ensures node !in s.conns[q].buffer ==>
              r == Ok(s.(conns := s.conns[q := s.conns[q].(buffer := s.conns[q].buffer[node := Waiting(node)])]))
  {
    var n := s.graph.nodes[node];
    var c := s.conns[q];
    if n.tag in c.buffer then
      match c.buffer[n.tag]
      case Raw(payload) =>
        var data := codec.loads(payload);
        if data.None? then Ok(s)
        else if n.state.Resolved? then Err(AlreadyResolved(node))
        else Ok(s.(graph := Resolve(s.graph, node, data.value)))
      case _ => Err(Unreadable(n.tag))
    else
      var placed := c.(buffer := c.buffer[n.tag := Waiting(node)]);
      Ok(s.(conns := s.conns[q := placed]))
  }

  /**
    What `Party.receive` touches: only the connection to `q` and node `node`.
    A node with nothing under its tag gets a placeholder; a placeholder under
    its tag is not bytes and cannot be read; and the node changes only by
    taking the value the parked payload reads as.
   */
  lemma ReceiveEffects(s: Session, codec: Codec, q: nat, node: NodeId)
    requires Connected(s) && q < s.m && q != s.pid && node < |s.graph.nodes|
    ensures var r := Receive(s, codec, q, node);
            && (r.Ok? ==> forall p :: 0 <= p < s.m && p != q ==> r.value.conns[p] == s.conns[p])
            && (r.Ok? ==> forall i :: 0 <= i < |s.graph.nodes| && i != node ==> r.value.graph.nodes[i] == s.graph.nodes[i])
            && (node !in s.conns[q].buffer ==> r.Ok? && r.value.conns[q].buffer[node] == Waiting(node))
            && (node !in s.conns[q].buffer ==>
                  r == Ok(s.(conns := s.conns[q := s.conns[q].(buffer := s.conns[q].buffer[node := Waiting(node)])])))
            && (node in s.conns[q].buffer && !s.conns[q].buffer[node].Raw? ==> r == Err(Unreadable(node)))
            && (node in s.conns[q].buffer && s.conns[q].buffer[node].Raw? ==>
                  var data := codec.loads(s.conns[q].buffer[node].payload);
                  && (data.None? ==> r == Ok(s))
                  && (data.Some? && s.graph.nodes[node].state.Resolved? ==> r == Err(AlreadyResolved(node)))
                  && (data.Some? && s.graph.nodes[node].state.Pending? ==>
                        r.Ok? && r.value.graph.nodes[node].state == Resolved(data.value) && r.value.conns == s.conns))
            && (r.Ok? && r.value.graph.nodes[node] != s.graph.nodes[node] ==>
                  && node in s.conns[q].buffer && s.conns[q].buffer[node].Raw?
                  && codec.loads(s.conns[q].buffer[node].payload).Some?
                  && r.value.graph.nodes[node].state == Resolved(codec.loads(s.conns[q].buffer[node].payload).value))
  {
  }

  /** The callback of a completed placeholder: decode the payload and resolve the node, unless the value is `None` or the node is already resolved. */
  function ApplyFulfil(g: Builder, codec: Codec, f: Fulfil): (r: Builder)
    requires Graph.Valid(g) && f.node < |g.nodes|
    ensures Graph.Valid(r) && |r.nodes| == |g.nodes| && r.variables == g.variables && r.counter == g.counter
    ensures forall i :: 0 <= i < |g.nodes| ==> Settles(g.nodes[i], r.nodes[i])
    ensures forall i :: 0 <= i < |g.nodes| && i != f.node ==> r.nodes[i] == g.nodes[i]
    ensures g.nodes[f.node].state.Pending? && codec.loads(f.payload).Some? ==>
              r.nodes[f.node].state == Resolved(codec.loads(f.payload).value)
    ensures codec.loads(f.payload).None? ==> r == g
  {
    var d := codec.loads(f.payload);
    if d.Some? && g.nodes[f.node].state.Pending? then Resolve(g, f.node, d.value) else g
  }

  /** Fulfil `f` completes a placeholder of node `id` with a payload that reads as a value. */
  predicate Completes(codec: Codec, f: Fulfil, id: NodeId) {
    f.node == id && codec.loads(f.payload).Some?
  }

  /** Fulfil `k` is the first of `fs` to complete node `id` with a readable payload. */
  predicate FirstCompletion(codec: Codec, fs: seq<Fulfil>, k: int, id: NodeId) {
    0 <= k < |fs| && Completes(codec, fs[k], id) && forall j :: 0 <= j < k ==> !Completes(codec, fs[j], id)
  }

  /**
    The callbacks of several completed placeholders, in order. A node changes
    only if it was pending and some fulfil completes it with a readable value;
    it then holds that value. Conversely a pending node that some fulfil
    completes takes the value of the first such fulfil.
   */
  function ApplyFulfils(g: Builder, codec: Codec, fs: seq<Fulfil>): (r: Builder)
    requires Graph.Valid(g) && forall i :: 0 <= i < |fs| ==> fs[i].node < |g.nodes|
    ensures Graph.Valid(r) && |r.nodes| == |g.nodes| && r.variables == g.variables && r.counter == g.counter
    ensures forall i :: 0 <= i < |g.nodes| ==> Settles(g.nodes[i], r.nodes[i])
    ensures forall i :: 0 <= i < |g.nodes| && r.nodes[i] != g.nodes[i] ==>
              g.nodes[i].state.Pending?
              && exists k :: 0 <= k < |fs| && Completes(codec, fs[k], i)
                             && r.nodes[i].state == Resolved(codec.loads(fs[k].payload).value)
    ensures forall i, k :: 0 <= i < |g.nodes| && g.nodes[i].state.Pending? && FirstCompletion(codec, fs, k, i) ==>
              r.nodes[i].state == Resolved(codec.loads(fs[k].payload).value)
    decreases |fs|
  {
    if |fs| == 0 then g
    else
      var next := ApplyFulfil(g, codec, fs[0]);
      var r := ApplyFulfils(next, codec, fs[1..]);
      assert forall i :: 0 <= i < |g.nodes| ==> Settles(g.nodes[i], next.nodes[i]) && Settles(next.nodes[i], r.nodes[i]);
      FulfilsStep(g, codec, fs, next, r);
      FirstCompletionStep(g, codec, fs, next, r);
      r
  }

  /** The first callback, then the rest: a node's first completion is the first fulfil's, or the first among the rest. */
  lemma FirstCompletionStep(g: Builder, codec: Codec, fs: seq<Fulfil>, next: Builder, r: Builder)
    requires Graph.Valid(g) && |fs| > 0 && forall i :: 0 <= i < |fs| ==> fs[i].node < |g.nodes|
    requires next == ApplyFulfil(g, codec, fs[0])
    requires |r.nodes| == |g.nodes|
    requires forall i :: 0 <= i < |g.nodes| ==> Settles(next.nodes[i], r.nodes[i])
    requires forall i, k :: 0 <= i < |g.nodes| && next.nodes[i].state.Pending? && FirstCompletion(codec, fs[1..], k, i) ==>
               r.nodes[i].state == Resolved(codec.loads(fs[1..][k].payload).value)
    ensures forall i, k :: 0 <= i < |g.nodes| && g.nodes[i].state.Pending? && FirstCompletion(codec, fs, k, i) ==>
              r.nodes[i].state == Resolved(codec.loads(fs[k].payload).value)
  {
    forall i, k | 0 <= i < |g.nodes| && g.nodes[i].state.Pending? && FirstCompletion(codec, fs, k, i)
      ensures r.nodes[i].state == Resolved(codec.loads(fs[k].payload).value)
    {
      if k > 0 {
        assert next.nodes[i] == g.nodes[i] by {
          assert !Completes(codec, fs[0], i);
        }
        assert fs[1..][k - 1] == fs[k];
        assert forall j :: 0 <= j < k - 1 ==> fs[1..][j] == fs[j + 1];
        assert FirstCompletion(codec, fs[1..], k - 1, i);
      }
    }
  }

  /** The first callback, then the rest: each change is owed to the first fulfil or to a later one. */
  lemma FulfilsStep(g: Builder, codec: Codec, fs: seq<Fulfil>, next: Builder, r: Builder)
    requires Graph.Valid(g) && |fs| > 0 && forall i :: 0 <= i < |fs| ==> fs[i].node < |g.nodes|
    requires next == ApplyFulfil(g, codec, fs[0])
    requires |r.nodes| == |g.nodes|
    requires forall i :: 0 <= i < |g.nodes| ==> Settles(next.nodes[i], r.nodes[i])
    requires forall i :: 0 <= i < |g.nodes| && r.nodes[i] != next.nodes[i] ==>
               next.nodes[i].state.Pending?
               && exists k :: 0 <= k < |fs[1..]| && Completes(codec, fs[1..][k], i)
                              && r.nodes[i].state == Resolved(codec.loads(fs[1..][k].payload).value)
    ensures forall i :: 0 <= i < |g.nodes| && r.nodes[i] != g.nodes[i] ==>
              g.nodes[i].state.Pending?
              && exists k :: 0 <= k < |fs| && Completes(codec, fs[k], i)
                             && r.nodes[i].state == Resolved(codec.loads(fs[k].payload).value)
  {
    forall i | 0 <= i < |g.nodes| && r.nodes[i] != g.nodes[i]
      ensures g.nodes[i].state.Pending?
      ensures exists k :: 0 <= k < |fs| && Completes(codec, fs[k], i)
                          && r.nodes[i].state == Resolved(codec.loads(fs[k].payload).value)
    {
      if next.nodes[i] != g.nodes[i] {
        assert r.nodes[i] == next.nodes[i];
        assert Completes(codec, fs[0], i);
      } else {
        var k :| 0 <= k < |fs[1..]| && Completes(codec, fs[1..][k], i)
                 && r.nodes[i].state == Resolved(codec.loads(fs[1..][k].payload).value);
        assert fs[1..][k] == fs[k + 1];
      }
    }
  }

  /**
    Bytes arriving from peer `q`: complete frames are cut and delivered, and
    every placeholder they complete hands its payload to its node.
   */
  function OnData(s: Session, codec: Codec, q: nat, data: Bytes): (r: Result<Session, RuntimeError>)
    requires Connected(s) && q < s.m && q != s.pid
    ensures r.Ok? ==> Connected(r.value) && Extends(s, r.value)
    ensures r.Ok? ==> forall p :: 0 <= p < s.m && p != q ==> r.value.conns[p] == s.conns[p]
    ensures r.Ok? ==> (Drain(s.conns[q].pending + data).1 == r.value.conns[q].pending)
    ensures r.Ok? ==> r.value.conns[q].buffer.Keys == s.conns[q].buffer.Keys + Tags(Drain(s.conns[q].pending + data).0)
    ensures r.Ok? <==> Ingest(s.conns[q], data).Ok?
    ensures r.Err? ==> r == Err(ConnectionFailed(Ingest(s.conns[q], data).error))
    ensures r.Ok? ==>
              var got := Ingest(s.conns[q], data);
              && got.Ok? && r.value.conns[q] == got.value.conn
              && (forall k :: 0 <= k < |got.value.fulfils| ==> got.value.fulfils[k].node < |s.graph.nodes|)
              && r.value.graph == ApplyFulfils(s.graph, codec, got.value.fulfils)
  {
    var c := s.conns[q];
    match Ingest(c, data)
    case Err(e) => Err(ConnectionFailed(e))
    case Ok(got) =>
      IngestBelow(c, data, |s.graph.nodes|);
      var g := ApplyFulfils(s.graph, codec, got.fulfils);
      var t := Session(s.pid, s.m, g, s.conns[q := got.conn]);
      assert forall p :: 0 <= p < s.m ==> PlaceholdersBelow(t.conns[p].buffer, |t.graph.nodes|);
      Ok(t)
  }

  lemma IngestBelow(c: Conn, data: Bytes, n: nat)
    requires PlaceholdersBelow(c.buffer, n) && Ingest(c, data).Ok?
    ensures PlaceholdersBelow(Ingest(c, data).value.conn.buffer, n)
    ensures forall i :: 0 <= i < |Ingest(c, data).value.fulfils| ==> Ingest(c, data).value.fulfils[i].node < n
  {
    var (msgs, rest) := Drain(c.pending + data);
    DeliverAllBelow(c.buffer, msgs, n);
  }

  /**
    Payload and request meet whichever comes first: a node that peer `q` has
    not yet sent, waiting for the frame a peer's `send` produces, is resolved
    to the sent value whether the party asks before the frame arrives or after.
   */
  lemma Rendezvous(s: Session, codec: Codec, q: nat, node: NodeId, v: int)
    requires Connected(s) && q < s.m && q != s.pid && node < |s.graph.nodes|
    requires s.graph.nodes[node].state.Pending?
    requires node !in s.conns[q].buffer && s.conns[q].pending == []
    requires Encodable(Message(node, codec.dumps(v))) && codec.loads(codec.dumps(v)) == Some(v)
    ensures var frame := Encode(Message(node, codec.dumps(v)));
            && Receive(s, codec, q, node).Ok?
            && OnData(Receive(s, codec, q, node).value, codec, q, frame).Ok?
            && OnData(Receive(s, codec, q, node).value, codec, q, frame).value.graph.nodes[node].state == Resolved(v)
            && OnData(s, codec, q, frame).Ok?
            && Receive(OnData(s, codec, q, frame).value, codec, q, node).Ok?
            && Receive(OnData(s, codec, q, frame).value, codec, q, node).value.graph.nodes[node].state == Resolved(v)
  {
    var msg := Message(node, codec.dumps(v));
    var frame := Encode(msg);
    SingleFrame(msg);
    assert s.conns[q].pending + frame == frame;
    // Request first: the frame completes the placeholder.
    ReceiveEffects(s, codec, q, node);
    var asked := Receive(s, codec, q, node).value;
    assert asked.conns[q].pending + frame == frame;
    var c := asked.conns[q];
    assert c.buffer[node] == Waiting(node);
    var filled := c.buffer[node := Fulfilled(node, msg.payload)];
    assert Deliver(c.buffer, msg) == Ok((filled, Some(Fulfil(node, msg.payload))));
    assert [msg][1..] == [];
    assert DeliverAll(filled, []) == Ok((filled, []));
    assert [Fulfil(node, msg.payload)] + [] == [Fulfil(node, msg.payload)];
    assert DeliverAll(c.buffer, [msg]) == Ok((filled, [Fulfil(node, msg.payload)]));
    assert Ingest(c, frame).value.fulfils == [Fulfil(node, msg.payload)];
    // Frame first: the payload is parked, then read by the request.
    var b := s.conns[q].buffer;
    assert Deliver(b, msg) == Ok((b[node := Raw(msg.payload)], None));
    assert DeliverAll(b[node := Raw(msg.payload)], []) == Ok((b[node := Raw(msg.payload)], []));
    assert DeliverAll(b, [msg]) == Ok((b[node := Raw(msg.payload)], []));
    assert Ingest(s.conns[q], frame).value.conn.buffer[node] == Raw(msg.payload);
    assert Ingest(s.conns[q], frame).value.fulfils == [];
    var arrived := OnData(s, codec, q, frame).value;
    assert arrived.graph == s.graph;
  }

  /** A connection with nothing pending reads one whole frame as exactly that frame. */
  lemma SingleFrame(msg: Message)
    requires Encodable(msg)
    ensures Drain(Encode(msg)) == ([msg], [])
  {
    assert EncodeAll([msg]) + [] == Encode(msg) by {
      assert EncodeAll([msg]) == Encode(msg) + EncodeAll([]);
    }
    DrainEncoded([msg], []);
  }

  // ---------------------------------------------------------------------------
  // Peers

  /** The pids `lo`, `lo + 1`, ..., `hi - 1`. */
  function Range(lo: nat, hi: nat): (r: seq<nat>)
    ensures |r| == if lo <= hi then hi - lo else 0
    ensures forall i :: 0 <= i < |r| ==> r[i] == lo + i
    decreases hi - lo
  {
    if lo >= hi then [] else [lo] + Range(lo + 1, hi)
  }

  lemma InRange(lo: nat, hi: nat)
    ensures forall q: nat :: q in Range(lo, hi) <==> lo <= q < hi
  {
    var r := Range(lo, hi);
    forall q: nat | lo <= q < hi ensures q in r {
      assert r[q - lo] == q;
    }
  }

  /** The other parties, in ascending pid order: whom `feed` and `shutdown` address. */
  function Others(m: nat, pid: nat): (r: seq<nat>)
    requires pid < m
    ensures |r| == m - 1
    ensures forall i :: 0 <= i < |r| ==> r[i] == if i < pid then i else i + 1
    ensures forall i, j :: 0 <= i < j < |r| ==> r[i] < r[j]
    ensures forall q: nat :: q in r <==> q < m && q != pid
  {
    InRange(0, pid);
    InRange(pid + 1, m);
    Range(0, pid) + Range(pid + 1, m)
  }

  /** Where another party stands among the others. */
  lemma OthersIndex(m: nat, pid: nat, q: nat) returns (j: nat)
    requires pid < m && q < m && q != pid
    ensures j < |Others(m, pid)| && Others(m, pid)[j] == q
  {
    j := if q < pid then q else q - 1;
  }

  // ---------------------------------------------------------------------------
  // feed

  /** `feed`'s argument: a dict from variables to values, in insertion order. */
  predicate DistinctKeys(inputs: seq<(NodeId, int)>) {
    forall i, j :: 0 <= i < j < |inputs| ==> inputs[i].0 != inputs[j].0
  }

  function KeySet(inputs: seq<(NodeId, int)>): (r: set<NodeId>)
    ensures forall k :: k in r <==> exists i :: 0 <= i < |inputs| && inputs[i].0 == k
    decreases |inputs|
  {
    if |inputs| == 0 then {}
    else
      var r := {inputs[0].0} + KeySet(inputs[1..]);
      assert forall i :: 0 < i < |inputs| ==> inputs[i] == inputs[1..][i - 1];
      r
  }

  /** The key names a registered variable that has no value yet. */
  predicate Feedable(g: Builder, kv: (NodeId, int))
    requires Graph.Valid(g)
  {
    kv.0 in g.variables && g.nodes[kv.0].state.Pending?
  }

  /** Every key names a registered variable that has no value yet. */
  predicate Acceptable(g: Builder, inputs: seq<(NodeId, int)>)
    requires Graph.Valid(g)
  {
    forall i :: 0 <= i < |inputs| ==> Feedable(g, inputs[i])
  }

  /** The position of the first key `feed` refuses. */
  function FirstRefused(g: Builder, inputs: seq<(NodeId, int)>): (j: nat)
    requires Graph.Valid(g) && !Acceptable(g, inputs)
    ensures j < |inputs| && !Feedable(g, inputs[j])
    ensures forall i :: 0 <= i < j ==> Feedable(g, inputs[i])
    decreases |inputs|
  {
    if !Feedable(g, inputs[0]) then 0
    else
      assert forall i :: 0 < i < |inputs| ==> inputs[i] == inputs[1..][i - 1];
      1 + FirstRefused(g, inputs[1..])
  }

  /** The exception a refused key raises: not a variable, or a variable that already has a value. */
  function Refusal(g: Builder, key: NodeId): (e: RuntimeError)
    ensures (e.NotAVariable? || e.AlreadyResolved?) && e.node == key
    ensures e.NotAVariable? <==> key !in g.variables
  {
    if key !in g.variables then NotAVariable(key) else AlreadyResolved(key)
  }

  /**
    The first loop of `feed`: each key must be a registered variable and is
    resolved to its value, in order; the first key that is not a variable, or
    already has a value, raises and stops the loop with the earlier keys set.
   */
  function ResolveInputs(g: Builder, inputs: seq<(NodeId, int)>): (r: (Builder, Option<RuntimeError>))
    requires Graph.Valid(g) && DistinctKeys(inputs)
    ensures Graph.Valid(r.0) && |r.0.nodes| == |g.nodes| && r.0.variables == g.variables && r.0.counter == g.counter
    ensures forall i :: 0 <= i < |g.nodes| ==> Settles(g.nodes[i], r.0.nodes[i])
    ensures forall i :: 0 <= i < |g.nodes| && i !in KeySet(inputs) ==> r.0.nodes[i] == g.nodes[i]
    ensures r.1.None? <==> Acceptable(g, inputs)
    ensures r.1.None? ==> forall i :: 0 <= i < |inputs| ==> r.0.nodes[inputs[i].0].state == Resolved(inputs[i].1)
    ensures r.1.Some? ==> r.1.value.NotAVariable? || r.1.value.AlreadyResolved?
    ensures r.1.Some? ==> RefusedAs(g, inputs, r.0, r.1.value)
    decreases |inputs|
  {
    if |inputs| == 0 then (g, None)
    else
      var (k, v) := inputs[0];
      if k !in g.variables then (g, Some(NotAVariable(k)))
      else if g.nodes[k].state.Resolved? then (g, Some(AlreadyResolved(k)))
      else
        var next := Resolve(g, k, v);
        assert forall i :: 0 <= i < |inputs| - 1 ==> inputs[1..][i] == inputs[i + 1];
        var r := ResolveInputs(next, inputs[1..]);
        assert k !in KeySet(inputs[1..]);
        AcceptableStep(g, inputs, v);
        RefusedStep(g, inputs, next, r);
        r
  }

  /**
    The loop stopped at the first refused key, raising `e` for it: `b` has the
    keys before it set to their values, and every node outside those keys as
    it was in `g`.
   */
  predicate RefusedAs(g: Builder, inputs: seq<(NodeId, int)>, b: Builder, e: RuntimeError)
    requires Graph.Valid(g)
  {
    && !Acceptable(g, inputs) && |b.nodes| == |g.nodes|
    && var j := FirstRefused(g, inputs);
       && e == Refusal(g, inputs[j].0)
       && (forall i :: 0 <= i < j ==> b.nodes[inputs[i].0].state == Resolved(inputs[i].1))
       && (forall i :: 0 <= i < |g.nodes| && i !in KeySet(inputs[..j]) ==> b.nodes[i] == g.nodes[i])
  }

  /** Resolving the first key, then refusing a later one: the refusal is the same key's, with the first key set too. */
  lemma RefusedStep(g: Builder, inputs: seq<(NodeId, int)>, next: Builder, r: (Builder, Option<RuntimeError>))
    requires Graph.Valid(g) && DistinctKeys(inputs) && |inputs| > 0 && Feedable(g, inputs[0])
    requires next == Resolve(g, inputs[0].0, inputs[0].1) && |r.0.nodes| == |g.nodes|
    requires r.1.Some? ==> RefusedAs(next, inputs[1..], r.0, r.1.value)
    ensures r.1.Some? ==> RefusedAs(g, inputs, r.0, r.1.value)
  {
    if r.1.Some? {
      var k := inputs[0].0;
      var j' := FirstRefused(next, inputs[1..]);
      RefusedIndex(g, inputs, next);
      assert inputs[1..][j'] == inputs[j' + 1] && inputs[j' + 1].0 != k;
      assert k !in KeySet(inputs[1..][..j']) by {
        assert forall m :: 0 <= m < j' ==> inputs[1..][..j'][m] == inputs[m + 1];
      }
      assert forall i :: 0 < i <= j' ==> inputs[1..][i - 1] == inputs[i];
      ResolvedBefore(inputs, r.0, j');
      UnchangedBefore(g, inputs, next, r.0, j');
    }
  }

  /** The first key set, and the rest set up to position `j`: every key up to position `j + 1` is set. */
  lemma ResolvedBefore(inputs: seq<(NodeId, int)>, b: Builder, j: nat)
    requires j + 1 < |inputs|
    requires forall i :: 0 <= i <= j ==> inputs[i].0 < |b.nodes|
    requires b.nodes[inputs[0].0].state == Resolved(inputs[0].1)
    requires forall i :: 0 <= i < j ==> b.nodes[inputs[1..][i].0].state == Resolved(inputs[1..][i].1)
    ensures forall i :: 0 <= i < j + 1 ==> b.nodes[inputs[i].0].state == Resolved(inputs[i].1)
  {
    forall i | 0 < i < j + 1
      ensures b.nodes[inputs[i].0].state == Resolved(inputs[i].1)
    {
      assert inputs[1..][i - 1] == inputs[i];
    }
  }

  /** Resolving the first key, then the rest up to position `j`: nothing outside those keys changes. */
  lemma UnchangedBefore(g: Builder, inputs: seq<(NodeId, int)>, next: Builder, b: Builder, j: nat)
    requires Graph.Valid(g) && j + 1 < |inputs| && inputs[0].0 < |g.nodes|
    requires next == Resolve(g, inputs[0].0, inputs[0].1) && |b.nodes| == |g.nodes|
    requires forall i :: 0 <= i < |g.nodes| && i !in KeySet(inputs[1..][..j]) ==> b.nodes[i] == next.nodes[i]
    ensures forall i :: 0 <= i < |g.nodes| && i !in KeySet(inputs[..j + 1]) ==> b.nodes[i] == g.nodes[i]
  {
    KeysBefore(inputs, j);
  }

  /** Resolving the first key moves the first refusal one place along. */
  lemma RefusedIndex(g: Builder, inputs: seq<(NodeId, int)>, next: Builder)
    requires Graph.Valid(g) && DistinctKeys(inputs) && |inputs| > 0 && Feedable(g, inputs[0])
    requires next == Resolve(g, inputs[0].0, inputs[0].1)
    requires !Acceptable(next, inputs[1..])
    ensures !Acceptable(g, inputs) && FirstRefused(g, inputs) == FirstRefused(next, inputs[1..]) + 1
  {
    var j' := FirstRefused(next, inputs[1..]);
    assert forall i :: 0 < i < |inputs| ==> inputs[1..][i - 1] == inputs[i] && inputs[i].0 != inputs[0].0;
    assert forall i :: 0 < i < |inputs| ==> (Feedable(next, inputs[i]) <==> Feedable(g, inputs[i]));
    assert !Feedable(g, inputs[j' + 1]);
    var j := FirstRefused(g, inputs);
    assert j > 0 ==> Feedable(next, inputs[1..][j - 1]) == Feedable(g, inputs[j]);
  }

  /** The keys before position `j + 1` are the first key and the keys of the rest before position `j`. */
  lemma KeysBefore(inputs: seq<(NodeId, int)>, j: nat)
    requires j < |inputs|
    ensures KeySet(inputs[..j + 1]) == {inputs[0].0} + KeySet(inputs[1..][..j])
  {
    assert inputs[..j + 1] == [inputs[0]] + inputs[1..][..j];
    assert forall m :: 0 <= m < j ==> inputs[1..][..j][m] == inputs[..j + 1][m + 1];
  }

  /** Resolving the first key leaves the rest acceptable exactly when all were. */
  lemma AcceptableStep(g: Builder, inputs: seq<(NodeId, int)>, v: int)
    requires Graph.Valid(g) && DistinctKeys(inputs) && |inputs| > 0
    requires inputs[0].0 in g.variables && g.nodes[inputs[0].0].state.Pending?
    ensures Acceptable(g, inputs) <==> Acceptable(Resolve(g, inputs[0].0, v), inputs[1..])
  {
    var next := Resolve(g, inputs[0].0, v);
    assert forall i :: 0 <= i < |inputs| - 1 ==> inputs[1..][i] == inputs[i + 1];
    if Acceptable(next, inputs[1..]) {
      forall i | 0 < i < |inputs|
        ensures inputs[i].0 in g.variables && g.nodes[inputs[i].0].state.Pending?
      {
        assert inputs[1..][i - 1] == inputs[i];
      }
    }
  }

  /** The result of a sequence of writes: the writes made, and the exception that stopped them, if any. */
  datatype Sent = Sent(events: seq<Event>, error: Option<RuntimeError>)

  /** `send` of one node to each of `targets`, in order. */
  function BroadcastTo(g: Builder, codec: Codec, node: NodeId, targets: seq<nat>): (r: Sent)
    requires Graph.Valid(g) && node < |g.nodes|
    ensures r.error.None? ==> |r.events| == |targets|
    ensures r.error.None? && |targets| > 0 ==> g.nodes[node].state.Resolved?
    ensures r.error.None? ==> forall i :: 0 <= i < |targets| ==>
              var msg := Message(node, codec.dumps(g.nodes[node].state.value));
              Encodable(msg) && r.events[i] == Wrote(targets[i], Encode(msg))
    ensures forall e :: e in r.events ==> e.Wrote? && e.peer in targets
    ensures r.error.None? <==> |targets| == 0 || Frame(g, codec, node).Ok?
    ensures r.error.Some? ==> r.events == [] && r.error == Some(Frame(g, codec, node).error)
    decreases |targets|
  {
    if |targets| == 0 then Sent([], None)
    else
      match Frame(g, codec, node)
      case Err(e) => Sent([], Some(e))
      case Ok(frame) =>
        var rest := BroadcastTo(g, codec, node, targets[1..]);
        assert forall i :: 0 < i < |targets| ==> targets[i] == targets[1..][i - 1];
        Sent([Wrote(targets[0], frame)] + rest.events, rest.error)
  }

  /** The second loop of `feed`: every fed node, in order, is sent to each of `peers`, in order. */
  function SendAll(g: Builder, codec: Codec, inputs: seq<(NodeId, int)>, peers: seq<nat>): (r: Sent)
    requires Graph.Valid(g) && forall i :: 0 <= i < |inputs| ==> inputs[i].0 < |g.nodes|
    ensures forall e :: e in r.events ==> e.Wrote? && e.peer in peers
    ensures r.error.None? && |peers| > 0 ==> forall i :: 0 <= i < |inputs| ==>
              var k := inputs[i].0;
              g.nodes[k].state.Resolved? && Encodable(Message(k, codec.dumps(g.nodes[k].state.value)))
    ensures r.error.None? <==> |peers| == 0 || forall i :: 0 <= i < |inputs| ==> Frame(g, codec, inputs[i].0).Ok?
    decreases |inputs|
  {
    if |inputs| == 0 then Sent([], None)
    else
      var first := BroadcastTo(g, codec, inputs[0].0, peers);
      if first.error.Some? then first
      else
        var rest := SendAll(g, codec, inputs[1..], peers);
        assert forall i :: 0 < i < |inputs| ==> inputs[i] == inputs[1..][i - 1];
        Sent(first.events + rest.events, rest.error)
  }

  /** One fed node more: its writes come first, then the rest's. */
  lemma SendAllStep(g: Builder, codec: Codec, inputs: seq<(NodeId, int)>, peers: seq<nat>)
    requires Graph.Valid(g) && forall i :: 0 <= i < |inputs| ==> inputs[i].0 < |g.nodes|
    requires |inputs| > 0 && SendAll(g, codec, inputs, peers).error.None?
    ensures BroadcastTo(g, codec, inputs[0].0, peers).error.None?
    ensures SendAll(g, codec, inputs[1..], peers).error.None?
    ensures SendAll(g, codec, inputs, peers).events
              == BroadcastTo(g, codec, inputs[0].0, peers).events + SendAll(g, codec, inputs[1..], peers).events
  {
  }

  /** Without an exception, one write per fed node and peer. */
  lemma {:induction false} SendAllCount(g: Builder, codec: Codec, inputs: seq<(NodeId, int)>, peers: seq<nat>)
    requires Graph.Valid(g) && forall i :: 0 <= i < |inputs| ==> inputs[i].0 < |g.nodes|
    requires SendAll(g, codec, inputs, peers).error.None?
    ensures |SendAll(g, codec, inputs, peers).events| == |inputs| * |peers|
    decreases |inputs|
  {
    if |inputs| > 0 {
      SendAllStep(g, codec, inputs, peers);
      SendAllCount(g, codec, inputs[1..], peers);
      MulStep(|inputs|, |peers|);
    }
  }

  lemma MulStep(a: nat, b: nat)
    requires a > 0
    ensures a * b == b + (a - 1) * b
  {
  }

  /** Without an exception, each fed node's frame goes to each peer. */
  lemma {:induction false} SendAllWrites(g: Builder, codec: Codec, inputs: seq<(NodeId, int)>, peers: seq<nat>, i: nat, j: nat)
    requires Graph.Valid(g) && forall i :: 0 <= i < |inputs| ==> inputs[i].0 < |g.nodes|
    requires SendAll(g, codec, inputs, peers).error.None?
    requires i < |inputs| && j < |peers|
    ensures var k := inputs[i].0;
            g.nodes[k].state.Resolved?
            && Encodable(Message(k, codec.dumps(g.nodes[k].state.value)))
            && Wrote(peers[j], Encode(Message(k, codec.dumps(g.nodes[k].state.value)))) in SendAll(g, codec, inputs, peers).events
    decreases |inputs|
  {
    SendAllStep(g, codec, inputs, peers);
    var first := BroadcastTo(g, codec, inputs[0].0, peers).events;
    var rest := SendAll(g, codec, inputs[1..], peers).events;
    if i == 0 {
      InFront(first, rest, j);
    } else {
      assert inputs[i] == inputs[1..][i - 1];
      SendAllWrites(g, codec, inputs[1..], peers, i - 1, j);
      var k := inputs[i].0;
      InBack(first, rest, Wrote(peers[j], Encode(Message(k, codec.dumps(g.nodes[k].state.value)))));
    }
  }

  lemma InFront<T>(a: seq<T>, b: seq<T>, j: nat)
    requires j < |a|
    ensures a[j] in a + b
  {
    assert (a + b)[j] == a[j];
  }

  lemma InBack<T>(a: seq<T>, b: seq<T>, x: T)
    requires x in b
    ensures x in a + b
  {
    var j :| 0 <= j < |b| && b[j] == x;
    assert (a + b)[|a| + j] == x;
  }

  /** The requests of `feed`'s third loop, in order: each node, asked of each of `peers` in turn. */
  function Requests(nodes: seq<NodeId>, peers: seq<nat>): (r: seq<(NodeId, nat)>)
    ensures forall k :: 0 <= k < |r| ==> r[k].0 in nodes && r[k].1 in peers
    decreases |nodes|
  {
    if |nodes| == 0 then []
    else
      var first := seq(|peers|, j requires 0 <= j < |peers| => (nodes[0], peers[j]));
      var rest := Requests(nodes[1..], peers);
      assert forall k :: 0 <= k < |rest| ==> rest[k].0 in nodes;
      first + rest
  }

  /** Every node is asked of every peer. */
  lemma {:induction false} RequestsCover(nodes: seq<NodeId>, peers: seq<nat>, i: nat, j: nat)
    requires i < |nodes| && j < |peers|
    ensures (nodes[i], peers[j]) in Requests(nodes, peers)
    decreases |nodes|
  {
    var first := seq(|peers|, j requires 0 <= j < |peers| => (nodes[0], peers[j]));
    var rest := Requests(nodes[1..], peers);
    assert Requests(nodes, peers) == first + rest;
    if i == 0 {
      InFront(first, rest, j);
    } else {
      Behind(nodes, i);
      RequestsCover(nodes[1..], peers, i - 1, j);
      InBack(first, rest, (nodes[i], peers[j]));
    }
  }

  lemma Behind<T>(xs: seq<T>, i: nat)
    requires 0 < i < |xs|
    ensures xs[1..][i - 1] == xs[i]
  {
  }

  /**
    `receive` for each request in turn; the first exception stops the loop.
    Without one, every request has left its node in the peer's delivery buffer.
   */
  function ReceiveEach(s: Session, codec: Codec, requests: seq<(NodeId, nat)>): (r: (Session, Option<RuntimeError>))
    requires Connected(s)
    requires forall k :: 0 <= k < |requests| ==> requests[k].0 < |s.graph.nodes| && requests[k].1 < s.m && requests[k].1 != s.pid
    ensures Connected(r.0) && Extends(s, r.0)
    ensures r.1.None? ==> forall k :: 0 <= k < |requests| ==> requests[k].0 in r.0.conns[requests[k].1].buffer
    ensures Unasked(s, requests) && Distinct(requests) ==> r.1.None?
    decreases |requests|
  {
    if |requests| == 0 then (s, None)
    else
      var (node, q) := requests[0];
      UnaskedStep(s, codec, requests);
      match Receive(s, codec, q, node)
      case Err(e) => (s, Some(e))
      case Ok(t) =>
        assert forall k :: 0 < k < |requests| ==> requests[1..][k - 1] == requests[k];
        var r := ReceiveEach(t, codec, requests[1..]);
        ExtendsTrans(s, t, r.0);
        assert r.1.None? ==> forall k :: 0 <= k < |requests| ==> requests[k].0 in r.0.conns[requests[k].1].buffer by {
          if r.1.None? {
            forall k | 0 <= k < |requests|
              ensures requests[k].0 in r.0.conns[requests[k].1].buffer
            {
              if k == 0 {
                assert t.conns[q].buffer.Keys <= r.0.conns[q].buffer.Keys;
              } else {
                assert requests[k] == requests[1..][k - 1];
              }
            }
          }
        }
        r
  }

  /** No two elements are equal. */
  predicate Distinct<T(==)>(xs: seq<T>) {
    forall j, k :: 0 <= j < k < |xs| ==> xs[j] != xs[k]
  }

  /** No requested node has a slot yet in the delivery buffer of the party it is asked of. */
  predicate Unasked(s: Session, requests: seq<(NodeId, nat)>) {
    forall k :: 0 <= k < |requests| && requests[k].1 < |s.conns| ==> requests[k].0 !in s.conns[requests[k].1].buffer
  }

  /**
    The first of distinct, unasked requests only installs its placeholder, so
    the remaining requests are still distinct and unasked afterwards.
   */
  lemma UnaskedStep(s: Session, codec: Codec, requests: seq<(NodeId, nat)>)
    requires Connected(s) && |requests| > 0
    requires forall k :: 0 <= k < |requests| ==> requests[k].0 < |s.graph.nodes| && requests[k].1 < s.m && requests[k].1 != s.pid
    ensures Unasked(s, requests) && Distinct(requests) ==>
              var t := Receive(s, codec, requests[0].1, requests[0].0);
              t.Ok? && Unasked(t.value, requests[1..]) && Distinct(requests[1..])
  {
    if Unasked(s, requests) && Distinct(requests) {
      var (node, q) := requests[0];
      assert node !in s.conns[q].buffer;
      var t := Receive(s, codec, q, node).value;
      forall k | 0 <= k < |requests| - 1 && requests[1..][k].1 < |t.conns|
        ensures requests[1..][k].0 !in t.conns[requests[1..][k].1].buffer
      {
        assert requests[1..][k] == requests[k + 1] != requests[0];
      }
      forall j, k | 0 <= j < k < |requests| - 1
        ensures requests[1..][j] != requests[1..][k]
      {
        assert requests[1..][j] == requests[j + 1] && requests[1..][k] == requests[k + 1];
      }
    }
  }

  /** Distinct nodes asked of distinct peers give distinct requests. */
  lemma {:induction false} RequestsDistinct(nodes: seq<NodeId>, peers: seq<nat>)
    requires Distinct(nodes) && Distinct(peers)
    ensures Distinct(Requests(nodes, peers))
    decreases |nodes|
  {
    if |nodes| > 0 {
      var first := seq(|peers|, j requires 0 <= j < |peers| => (nodes[0], peers[j]));
      var rest := Requests(nodes[1..], peers);
      assert Requests(nodes, peers) == first + rest;
      forall j, k | 0 <= j < k < |nodes| - 1
        ensures nodes[1..][j] != nodes[1..][k]
      {
        assert nodes[1..][j] == nodes[j + 1] && nodes[1..][k] == nodes[k + 1];
      }
      RequestsDistinct(nodes[1..], peers);
      forall k | 0 <= k < |rest|
        ensures rest[k].0 != nodes[0]
      {
        var i :| 0 <= i < |nodes| - 1 && nodes[1..][i] == rest[k].0;
        assert nodes[1..][i] == nodes[i + 1];
      }
      forall j, k | 0 <= j < k < |first| + |rest|
        ensures (first + rest)[j] != (first + rest)[k]
      {
        if |first| <= j {
          assert (first + rest)[j] == rest[j - |first|] && (first + rest)[k] == rest[k - |first|];
        } else if |first| <= k {
          assert (first + rest)[k] == rest[k - |first|];
        }
      }
    }
  }

  /** The registered variables below index `n` that are not fed, in ascending order. */
  function Unfed(g: Builder, fed: set<NodeId>, n: nat): (r: seq<NodeId>)
    requires n <= |g.nodes|
    ensures forall i :: 0 <= i < |r| ==> r[i] < n
    ensures forall i, j :: 0 <= i < j < |r| ==> r[i] < r[j]
    ensures forall u :: u in r <==> u < n && u in g.variables && u !in fed
  {
    if n == 0 then []
    else Unfed(g, fed, n - 1) + (if n - 1 in g.variables && n - 1 !in fed then [n - 1] else [])
  }

  /** What `feed` leaves: the party's state, the writes made, and the exception that stopped it, if any. */
  datatype Step = Step(session: Session, events: seq<Event>, error: Option<RuntimeError>)

  /**
    `feed`: resolve the fed variables, send each of them to every other party,
    then ask every other party for each variable not fed here. An exception
    stops the coroutine with the effects made so far.
   */
  function Feed(s: Session, codec: Codec, inputs: seq<(NodeId, int)>): (r: Step)
    requires Connected(s) && DistinctKeys(inputs)
    ensures Connected(r.session) && Extends(s, r.session)
    ensures !Acceptable(s.graph, inputs) ==> r.events == [] && r.error.Some?
    ensures forall e :: e in r.events ==> e.Wrote? && e.peer < s.m && e.peer != s.pid
    ensures r.error.None? ==> Acceptable(s.graph, inputs)
    ensures r.error.None? ==> forall i :: 0 <= i < |inputs| ==> r.session.graph.nodes[inputs[i].0].state == Resolved(inputs[i].1)
  {
    var (g, failed) := ResolveInputs(s.graph, inputs);
    var fedState := s.(graph := g);
    assert Extends(s, fedState);
    if failed.Some? then Step(fedState, [], failed)
    else
      assert forall i :: 0 <= i < |inputs| ==> inputs[i].0 in s.graph.variables;
      var sent := SendAll(g, codec, inputs, Others(s.m, s.pid));
      if sent.error.Some? then Step(fedState, sent.events, sent.error)
      else
        var requests := Requests(Unfed(g, KeySet(inputs), |g.nodes|), Others(s.m, s.pid));
        var (t, err) := ReceiveEach(fedState, codec, requests);
        ExtendsTrans(s, fedState, t);
        Step(t, sent.events, err)
  }

  /**
    When `feed` completes: every key names a pending variable, every fed value
    packs into a frame, and no other party's buffer holds a slot yet for a
    variable this party still has to ask for.
   */
  lemma FeedCompletes(s: Session, codec: Codec, inputs: seq<(NodeId, int)>)
    requires Connected(s) && DistinctKeys(inputs)
    requires Acceptable(s.graph, inputs)
    requires forall i :: 0 <= i < |inputs| ==> Encodable(Message(inputs[i].0, codec.dumps(inputs[i].1)))
    requires forall u, q :: u in s.graph.variables && u !in KeySet(inputs) && 0 <= q < s.m && q != s.pid ==> u !in s.conns[q].buffer
    ensures Feed(s, codec, inputs).error.None?
  {
    var g := ResolveInputs(s.graph, inputs).0;
    var others := Others(s.m, s.pid);
    assert forall i :: 0 <= i < |inputs| ==> inputs[i].0 in s.graph.variables;
    forall i | 0 <= i < |inputs|
      ensures Frame(g, codec, inputs[i].0).Ok?
    {
      assert g.nodes[inputs[i].0].state == Resolved(inputs[i].1);
    }
    assert SendAll(g, codec, inputs, others).error.None?;
    var fedState := s.(graph := g);
    var unfed := Unfed(g, KeySet(inputs), |g.nodes|);
    var requests := Requests(unfed, others);
    RequestsDistinct(unfed, others);
    assert Unasked(fedState, requests) by {
      forall k | 0 <= k < |requests| && requests[k].1 < |fedState.conns|
        ensures requests[k].0 !in fedState.conns[requests[k].1].buffer
      {
        assert requests[k].0 in unfed && requests[k].1 in others;
      }
    }
  }

  /** A `feed` that completes has resolved every fed variable, and its writes are those of the second loop. */
  lemma FeedSends(s: Session, codec: Codec, inputs: seq<(NodeId, int)>)
    requires Connected(s) && DistinctKeys(inputs)
    requires Feed(s, codec, inputs).error.None?
    ensures var g := ResolveInputs(s.graph, inputs).0;
            && Graph.Valid(g) && (forall j :: 0 <= j < |inputs| ==> inputs[j].0 < |g.nodes|)
            && (forall j :: 0 <= j < |inputs| ==> g.nodes[inputs[j].0].state == Resolved(inputs[j].1))
            && SendAll(g, codec, inputs, Others(s.m, s.pid)).error.None?
            && Feed(s, codec, inputs).events == SendAll(g, codec, inputs, Others(s.m, s.pid)).events
  {
    assert forall j :: 0 <= j < |inputs| ==> inputs[j].0 in s.graph.variables;
  }

  /** A `feed` that completes has written the frame of every fed value to every other party. */
  lemma FeedAnnounces(s: Session, codec: Codec, inputs: seq<(NodeId, int)>, i: nat, q: nat)
    requires Connected(s) && DistinctKeys(inputs)
    requires Feed(s, codec, inputs).error.None?
    requires i < |inputs| && q < s.m && q != s.pid
    ensures Encodable(Message(inputs[i].0, codec.dumps(inputs[i].1)))
    ensures Wrote(q, Encode(Message(inputs[i].0, codec.dumps(inputs[i].1)))) in Feed(s, codec, inputs).events
  {
    FeedSends(s, codec, inputs);
    var g := ResolveInputs(s.graph, inputs).0;
    var others := Others(s.m, s.pid);
    var j := OthersIndex(s.m, s.pid, q);
    SendAllWrites(g, codec, inputs, others, i, j);
  }

  /** A `feed` that completes writes exactly one frame per fed value and other party. */
  lemma FeedCount(s: Session, codec: Codec, inputs: seq<(NodeId, int)>)
    requires Connected(s) && DistinctKeys(inputs)
    requires Feed(s, codec, inputs).error.None?
    ensures |Feed(s, codec, inputs).events| == |inputs| * (s.m - 1)
  {
    FeedSends(s, codec, inputs);
    var others := Others(s.m, s.pid);
    var sent := SendAll(ResolveInputs(s.graph, inputs).0, codec, inputs, others);
    SendAllCount(ResolveInputs(s.graph, inputs).0, codec, inputs, others);
    assert |sent.events| == |inputs| * |others|;
    assert |others| == s.m - 1;
  }

  /** A `feed` that completes ends in the state its third loop leaves, having served every request. */
  lemma FeedReceives(s: Session, codec: Codec, inputs: seq<(NodeId, int)>) returns (fedState: Session)
    requires Connected(s) && DistinctKeys(inputs)
    requires Feed(s, codec, inputs).error.None?
    ensures Connected(fedState) && fedState.m == s.m && fedState.pid == s.pid
    ensures fedState.graph.variables == s.graph.variables && |fedState.graph.nodes| == |s.graph.nodes|
    ensures var requests := Requests(Unfed(fedState.graph, KeySet(inputs), |s.graph.nodes|), Others(s.m, s.pid));
            && (forall k :: 0 <= k < |requests| ==> requests[k].0 < |fedState.graph.nodes| && requests[k].1 < s.m && requests[k].1 != s.pid)
            && ReceiveEach(fedState, codec, requests).1.None?
            && Feed(s, codec, inputs).session == ReceiveEach(fedState, codec, requests).0
  {
    fedState := s.(graph := ResolveInputs(s.graph, inputs).0);
    assert forall j :: 0 <= j < |inputs| ==> inputs[j].0 in s.graph.variables;
  }

  /** A `feed` that completes has asked every other party for every registered variable it was not given. */
  lemma FeedRequests(s: Session, codec: Codec, inputs: seq<(NodeId, int)>, u: NodeId, q: nat)
    requires Connected(s) && DistinctKeys(inputs)
    requires Feed(s, codec, inputs).error.None?
    requires u in s.graph.variables && u !in KeySet(inputs) && q < s.m && q != s.pid
    ensures u in Feed(s, codec, inputs).session.conns[q].buffer
  {
    var fedState := FeedReceives(s, codec, inputs);
    UnfedAsked(fedState, codec, KeySet(inputs), |s.graph.nodes|, u, q);
  }

  /** The third loop asks every other party for every unfed variable. */
  lemma UnfedAsked(s: Session, codec: Codec, fed: set<NodeId>, n: nat, u: NodeId, q: nat)
    requires Connected(s) && n == |s.graph.nodes|
    requires u in s.graph.variables && u !in fed && q < s.m && q != s.pid
    requires var requests := Requests(Unfed(s.graph, fed, n), Others(s.m, s.pid));
             && (forall k :: 0 <= k < |requests| ==> requests[k].0 < |s.graph.nodes| && requests[k].1 < s.m && requests[k].1 != s.pid)
             && ReceiveEach(s, codec, requests).1.None?
    ensures u in ReceiveEach(s, codec, Requests(Unfed(s.graph, fed, n), Others(s.m, s.pid))).0.conns[q].buffer
  {
    var k := Requested(s.graph, fed, n, s.m, s.pid, u, q);
  }

  /** Where the request for an unfed variable from another party stands in the third loop. */
  lemma Requested(g: Builder, fed: set<NodeId>, n: nat, m: nat, pid: nat, u: NodeId, q: nat) returns (k: nat)
    requires Graph.Valid(g) && n == |g.nodes|
    requires u in g.variables && u !in fed && pid < m && q < m && q != pid
    ensures k < |Requests(Unfed(g, fed, n), Others(m, pid))|
    ensures Requests(Unfed(g, fed, n), Others(m, pid))[k] == (u, q)
  {
    var unfed := Unfed(g, fed, n);
    var others := Others(m, pid);
    var requests := Requests(unfed, others);
    var i :| 0 <= i < |unfed| && unfed[i] == u;
    var j := OthersIndex(m, pid, q);
    RequestsCover(unfed, others, i, j);
    k :| k < |requests| && requests[k] == (u, q);
  }

  // ---------------------------------------------------------------------------
  // shutdown and the connection pattern

  /** `shutdown`: close the connection to every other party, in ascending pid order. */
  function Shutdown(s: Session): (r: seq<Event>)
    requires Connected(s)
    ensures |r| == s.m - 1
    ensures forall e :: e in r ==> e.Closed?
    ensures forall q: nat :: Closed(q) in r <==> q < s.m && q != s.pid
  {
    var others := Others(s.m, s.pid);
    var r := seq(|others|, i requires 0 <= i < |others| => Closed(others[i]));
    assert forall q: nat :: Closed(q) in r ==> q in others;
    assert forall q: nat :: q in others ==> Closed(q) in r by {
      forall q: nat | q in others ensures Closed(q) in r {
        var i :| 0 <= i < |others| && others[i] == q;
        assert r[i] == Closed(q);
      }
    }
    r
  }

  /** `start` opens a server on every party but party 0. */
  predicate Listens(pid: nat) {
    pid != 0
  }

  /** `start` dials every party with a larger pid, in ascending order. */
  function Dials(m: nat, pid: nat): (r: seq<nat>)
    requires pid < m
    ensures |r| == m - 1 - pid
    ensures forall q: nat :: q in r <==> pid < q < m
  {
    InRange(pid + 1, m);
    Range(pid + 1, m)
  }

  /**
    Every pair of parties gets exactly one connection: the smaller pid dials,
    the larger one, which always listens, accepts. So party `p` accepts one
    connection from each smaller pid and dials each larger one: m-1 in all.
   */
  lemma OneLinkPerPair(m: nat, i: nat, j: nat)
    requires i < j < m
    ensures j in Dials(m, i) && i !in Dials(m, j) && Listens(j)
    ensures |Dials(m, i)| + i == m - 1
  {
  }
}
